=== FILE: README.md ===
# api_yamdb access and account lifecycle, in Dafny

A model of the authorization and account-lifecycle core of api_yamdb. This
Django REST service lets people review titles (books, films, music) and
comment on reviews. The model covers:

- the three account roles and the `is_user` / `is_moderator` / `is_admin`
  properties of the user model;
- the five permission classes and the `|` composition of permission classes;
- how each viewset picks its permission list per action, including:
  - `ReviewViewSet`'s action table and its fallback;
  - `CommentViewSet`'s table, which nothing reads;
- the order in which a request is gated: permissions, then the handler (405),
  then the object lookup (404), then the object permissions;
- the passwordless sign-up → e-mailed confirmation code → access token flow;
- the self-profile endpoint `/users/me/` and the admin user endpoints;
- review, comment and title creation, editing and deletion on a store of
  accounts, titles, reviews and comments. The model states the store's
  invariant and proves every endpoint keeps it: unique usernames and
  e-mails, scores in [1, 10], one review per author and title, no dangling
  references, and cascading deletes.

Modules, one per file:

| file | module | what it holds |
|---|---|---|
| outcomes.dfy | `Outcomes` | `Option`, `Result`, the error kinds (400/401/403/404/405/500) and the request fields a validation error names |
| roles.dfy | `Roles` | roles, their stored names, the role choice check |
| accounts.dfy | `Accounts` | the account record, role predicates, field bounds |
| permissions.dfy | `Permissions` | the permission classes as predicates |
| gates.dfy | `Gates` | viewsets, routes, actions, the permission tables, the request gate, and the access rule it is proved against |
| models.dfy | `Models` | titles, reviews, comments, the store, its invariant `Valid`, inserts and cascading deletes |
| serializers.dfy | `Serializers` | field validation of the serializers, the duplicate-review check, the title year |
| credentials.dfy | `Credentials` | the confirmation-code oracle and the access token |
| registration.dfy | `Registration` | sign-up |
| tokens.dfy | `Tokens` | token issuance |
| userendpoints.dfy | `UserEndpoints` | `/users/me/` and the admin users viewset |
| reviewendpoints.dfy | `ReviewEndpoints` | reviews and comments |
| titleendpoints.dfy | `TitleEndpoints` | title creation and deletion |

Each endpoint is a pure function from a store, a requester (`Actor`: anonymous
or an account) and the request data to a `Result`. On success it returns the
new store. Each endpoint's contract states:

- which refusal each error path gives, and for validation errors the fields
  named;
- what a success stores.

A `...KeepsValid` lemma next to each endpoint shows it keeps the store
invariant.

Behaviour of the code worth knowing before reading the contracts:

- A refused permission gives 401 to an anonymous requester and 403 to a
  signed-in one. This is the REST framework's answer when token
  authentication is configured.
- Uniqueness violations of usernames, e-mails and title names are 400 field
  errors.
- The confirmation code is not stored. It is computed from the account's key
  and e-mail, so it stays valid after activation and across repeated sign-ups
  (`Tokens.CodeReusable`).
- Sign-up stores whatever role the request names, although the self-profile
  serializer makes the role read-only (api_yamdb/api/serializers.py:126).
  This is the first finding below.
- For each finding the model has the code as written and a corrected
  version. Sign-up ships both (`Registration.SignUpAsWritten`,
  `Registration.SignUp`), and so does title creation
  (`TitleEndpoints.CreateTitleAsWritten`, `TitleEndpoints.CreateTitle`). The
  rest of the model, and the store-invariant lemmas, use the corrected year
  check.

## Model

| member | source | states |
|---|---|---|
| `Roles.ParseRole` | api_yamdb/reviews/models.py:143-149 | a role string is accepted exactly when it is one of the three choices, and is read as the role of that name |
| `Roles.ParseRoleName` | api_yamdb/reviews/models.py:114-118 | reading back a stored role name gives the same role |
| `Roles.RoleNameInjective` | api_yamdb/reviews/models.py:114-118 | distinct roles are stored as distinct strings |
| `Accounts.RolePropertiesPartition` | api_yamdb/reviews/models.py:151-161 | exactly one of `is_user`, `is_moderator` and the admin role holds of every account |
| `Permissions.HasPermission` | api_yamdb/api/permissions.py:7-46 | no project class, and no `\|` of them, lets an anonymous requester use an unsafe method; only `AllowAny` can |
| `Permissions.AdminOrSuperUserIgnoresMethod` | api_yamdb/api/permissions.py:7-9 | `IsAdminOrSuperUser` grants exactly signed-in admins and superusers, for every method; anonymous requesters and non-superuser moderators are refused |
| `Permissions.AdminOrReadOnlyGrants` | api_yamdb/api/permissions.py:15-19 | `IsAdminOrReadOnly` grants every safe method to everyone and an unsafe one exactly to signed-in admins |
| `Permissions.ModeratorGrantsOnlyModerators` | api_yamdb/api/permissions.py:25-27 | `IsModerator` grants exactly signed-in moderators; an admin of another role is refused |
| `Permissions.UserGrantsOnlyUsers` | api_yamdb/api/permissions.py:33-35 | `IsUser` grants exactly signed-in holders of the user role |
| `Permissions.OwnerRequestLevel` | api_yamdb/api/permissions.py:41-46 | `IsOwner` passes every signed-in requester, and an anonymous one exactly for safe methods |
| `Permissions.OwnerHasObjectPermission` | api_yamdb/api/permissions.py:48-55 | on a safe method every object is granted; on an unsafe one exactly when the requester is signed in and the author, a moderator or an admin |
| `Permissions.HasObjectPermission` | api_yamdb/api/permissions.py:41-55 | a permission without `IsOwner` in it has no object check and grants every object; safe methods and signed-in authors, moderators and admins are granted through any `\|` |
| `Permissions.OwnerObjectLevel` | api_yamdb/api/permissions.py:48-55 | on an object, `IsOwner` grants an unsafe method exactly to its author, moderators and admins; moderators and admins pass on every object |
| `Permissions.SuperuserPassesAdminChecks` | api_yamdb/reviews/models.py:155-157 | a signed-in superuser passes both admin classes whatever its role, may edit every object and is refused by no object check; `IsModerator` and `IsUser` still follow its role |
| `Permissions.OrWidens` | api_yamdb/api/views.py:72-73 | combining classes with `\|` never refuses what one of them grants |
| `Gates.ActionOf` | api_yamdb/api/views.py:29-35 | OPTIONS, and only OPTIONS, is the metadata action; any other action is the routed one and one the viewset implements; HEAD is handled as GET; the list and create only viewsets have no retrieve |
| `Gates.ReviewPermissions` | api_yamdb/api/views.py:71-83 | list and retrieve are open to everyone, create gets the three-way `\|`, and every other action, including `update` and `metadata`, falls back to `[IsOwner]` |
| `Gates.PermissionsFor` | api_yamdb/api/views.py:29-149 | every viewset applies one permission class; only the review viewset uses `AllowAny`; comments always get `[IsOwner]`, users `[IsAdminOrSuperUser]` and the catalogue `[IsAdminOrReadOnly]` |
| `Gates.CheckPermissions` | api_yamdb/api/views.py:78-83 | the returned permission list passes iff every class grants; a refusal is 401 or 403 by who asks |
| `Gates.CheckObjectPermissions` | api_yamdb/api/views.py:78-83 | the object check passes iff every class grants the object |
| `Gates.Gate` | api_yamdb/api/views.py:68-104 | a request that passes has a routed action the viewset implements, every permission granted, and for detail actions an existing object every permission grants; failures are only the permission answer, 405 or 404 |
| `Gates.GateFollowsPolicy` | api_yamdb/api/views.py:29-156 | for every viewset, routed action and existing object, the permission lists allow exactly what the per-resource access rule allows: open reads, admin-only catalogue writes, signed-in creates, author/moderator/admin edits, admin-only user administration |
| `Gates.AnonymousOnlyReads` | api_yamdb/api/permissions.py:7-55 | an anonymous requester is refused every unsafe method on every viewset with 401 |
| `Gates.ReviewCreateNeedsOnlyAuthentication` | api_yamdb/api/views.py:71-73 | the three-way `\|` on review create collapses to "signed in" |
| `Gates.ReviewFallback` | api_yamdb/api/views.py:78-83 | an action missing from the review table (PUT's `update`, OPTIONS' `metadata`) gets `[IsOwner]` |
| `Gates.CommentTableNeverConsulted` | api_yamdb/api/views.py:95-104 | every comment action is governed by `[IsOwner]` alone |
| `Gates.CommentTableWouldRefuseAuthors` | api_yamdb/api/views.py:103-104 | the unread comment table would refuse an ordinary author deleting their own comment, which the applied `[IsOwner]` allows |
| `Gates.OpenReadGate` | api_yamdb/api/views.py:70-97 | review and comment lists always pass, and a detail read passes exactly when the object exists |
| `Gates.AuthenticatedCreateGate` | api_yamdb/api/views.py:70-97 | creating a review or comment needs a signed-in requester and nothing more |
| `Gates.AuthoredDetailGate` | api_yamdb/api/views.py:70-97 | changing or deleting a review or comment: 401 anonymous, 404 missing, success for author/moderator/admin, 403 otherwise |
| `Gates.TitleWriteGate` | api_yamdb/api/views.py:48-52 | creating or deleting a title is for admins; a missing title is reported to admins only |
| `Gates.UsersGate` | api_yamdb/api/views.py:142-156 | the admin users viewset: admin-only first, then 405 for PUT and unhandled methods, then 404 for a missing account |
| `Gates.UsersRefusePut` | api_yamdb/api/views.py:153-156 | PUT on a user is 405 for admins and the permission answer for everyone else |
| `Gates.UsersNeedAdmin` | api_yamdb/api/views.py:149 | every user administration request by a non-admin is refused |
| `Models.WithoutReviews` | api_yamdb/reviews/models.py:208-212 | removing reviews removes exactly the comments on them and keeps every other row |
| `Models.WithoutReviewsValid` | api_yamdb/reviews/models.py:207-212 | removing reviews together with their comments leaves no comment on a missing review and keeps the invariant |
| `Models.DeleteUserValid` | api_yamdb/reviews/models.py:174-178 | removing an account, its reviews, the comments on them and its own comments keeps the invariant |
| `Models.DeleteCommentValid` | api_yamdb/reviews/models.py:207-218 | removing a comment keeps the invariant |
| `Models.DeleteReview` | api_yamdb/reviews/models.py:208-212 | deleting a review removes its comments, keeps all other rows, and keeps the invariant |
| `Models.DeleteTitle` | api_yamdb/reviews/models.py:168-172 | deleting a title removes its reviews and their comments, keeps all other rows, and keeps the invariant |
| `Models.DeleteUser` | api_yamdb/reviews/models.py:174-178 | deleting an account removes its reviews, its comments and the comments on its reviews; nothing refers to it afterwards; the invariant holds |
| `Models.DeleteComment` | api_yamdb/reviews/models.py:207-218 | deleting a comment keeps every other row and the invariant |
| `Models.AddAccountValid` | api_yamdb/reviews/models.py:123-136 | inserting a well-formed account with an unused username and e-mail keeps usernames, e-mails and keys unique |
| `Models.ReplaceAccountValid` | api_yamdb/reviews/models.py:123-136 | editing an account into a well-formed one whose username and e-mail no other account has keeps the invariant and the set of keys |
| `Models.AddReviewValid` | api_yamdb/reviews/models.py:195-204 | inserting an in-range review of an existing title by an existing account that has not reviewed it keeps one review per author and title |
| `Models.SetReviewValid` | api_yamdb/reviews/models.py:179-189 | changing a review's text and in-range score keeps the invariant |
| `Models.AddCommentValid` | api_yamdb/reviews/models.py:207-218 | inserting a comment on an existing review by an existing account keeps the invariant |
| `Models.AddTitleValid` | api_yamdb/reviews/models.py:49-62 | inserting a title with an unused, bounded name and a year of at least 1 keeps the invariant |
| `Models.SetActiveValid` | api_yamdb/api/views.py:133-134 | activating an account keeps the invariant and the set of keys |
| `Serializers.CharFieldErrors` | api_yamdb/reviews/models.py:123-139 | a field passes exactly when present or optional, within its length bound, and non-blank where blanks are not allowed |
| `Serializers.ShapeErrors` | api_yamdb/api/serializers.py:137-149 | the sign-up pre-check passes exactly when the username is non-blank and at most 150 characters, the e-mail non-blank and at most 254, the names at most 150, both required fields are present unless partial, and a writable role is a valid choice. So `me` and taken names or e-mails pass it: it checks no uniqueness and no reserved name |
| `Serializers.UserErrors` | api_yamdb/api/serializers.py:97-120 | data passes exactly when it passes the shape checks, names neither `me` nor a username held by another account, and no e-mail another account has; `me` is always refused, and only user fields are named |
| `Serializers.RequestedRole` | api_yamdb/reviews/models.py:143-149 | a request without a role asks for the default `user` role |
| `Serializers.NewAccount` | api_yamdb/reviews/models.py:137-149 | a created account carries the requested username, e-mail and role, is no superuser, and has the given activation flag |
| `Serializers.ApplyUserData` | api_yamdb/api/serializers.py:123-134 | an update keeps the key and the superuser and activation flags, and the role unless it is writable |
| `Serializers.ApplyUserDataWellFormed` | api_yamdb/reviews/models.py:123-139 | validated data keeps an account within the field bounds |
| `Serializers.NewAccountWellFormed` | api_yamdb/reviews/models.py:123-139 | validated create data gives a well-formed account |
| `Serializers.TextFieldErrors` | api_yamdb/reviews/models.py:173 | a text field that passes is non-blank |
| `Serializers.ReviewFieldErrors` | api_yamdb/reviews/models.py:179-189 | review data passes exactly when any given text is non-blank, any given score lies in [1, 10], and, unless the update is partial, both are given; only the text and score fields are named |
| `Serializers.ReviewValidate` | api_yamdb/api/serializers.py:185-199 | the duplicate check refuses a POST exactly when the requester already reviewed the title, and passes every other method |
| `Serializers.ValidateYearAsWritten` | api_yamdb/api/serializers.py:69-78 | the year check as written: bounded by the import-time year and the current year; an explicit null is a server error |
| `Serializers.ValidateYear` | api_yamdb/reviews/models.py:55-62 | a year is accepted exactly when in [1, current year]; null and absence are accepted |
| `Serializers.StaleYearBoundRejectsCurrentYear` | api_yamdb/reviews/models.py:59 | after a year change the as-written check refuses the current year, which the intended check accepts |
| `Serializers.NullYearCrashes` | api_yamdb/api/serializers.py:69-78 | an explicit null year crashes the as-written check and passes the intended one |
| `Serializers.YearChecksAgreeWhenFresh` | api_yamdb/api/serializers.py:69-78 | when the server started this year both checks agree on every number |
| `Serializers.TitleErrors` | api_yamdb/reviews/models.py:50-54 | a title name passes exactly when it is given, non-blank, at most 256 characters and unused; only the name field is named |
| `Serializers.LinkErrors` | api_yamdb/api/serializers.py:55-63 | the category passes iff it is given and names a stored category slug; the genre passes iff a list is given and every slug in it names a stored genre (an empty list passes) |
| `Registration.SignUpWith` | api_yamdb/api/views.py:197-212 | an existing (username, e-mail) pair is reused and the store is unchanged; otherwise the full checks run and a new inactive, non-superuser account is created under the next key. The code of the stored account goes to the requested address, and the answer carries only e-mail and username |
| `Registration.SignUpAsWritten` | api_yamdb/api/views.py:200-205 | as written, a new account gets the role the request names |
| `Registration.SignUp` | api_yamdb/api/views.py:200-205 | as intended, a new account gets the default role |
| `Registration.SignUpWithKeepsValid` | api_yamdb/api/views.py:200-205 | sign-up keeps the store invariant |
| `Registration.SignUpIdempotent` | api_yamdb/api/views.py:202-208 | repeating a successful sign-up changes nothing and mails the same code; this holds because the code oracle has no timestamp, while the source's `make_token` makes a new string on each call |
| `Registration.SignUpAsWrittenGrantsAdmin` | api_yamdb/api/serializers.py:108-114 | a sign-up naming the admin role creates an admin account |
| `Registration.SignUpNeverElevates` | api_yamdb/api/views.py:200-205 | the intended sign-up creates no admin or moderator |
| `Registration.SignUpRejectsReserved` | api_yamdb/api/serializers.py:116-120 | sign-up as `me` always fails, naming the username once the length checks pass |
| `Registration.SignUpRejectsTakenUsername` | api_yamdb/reviews/models.py:129-136 | a username held by an account with another e-mail is refused |
| `Registration.SignUpRejectsTakenEmail` | api_yamdb/api/serializers.py:100-106 | an e-mail held by another account is refused |
| `Credentials.CodeMatches` | api_yamdb/api/views.py:130-131 | a code matches exactly the one the generator makes for the account's key and e-mail; any other account data, the activation flag included, does not affect the answer |
| `Tokens.IssueToken` | api_yamdb/api/views.py:124-139 | a token is issued iff the fields are valid, the account exists and the code matches; it names the account and activates it, changing nothing else. `me` is a field error, an unknown name is 404, a wrong code 400; field errors name only the two fields, and a known name with a missing or overlong code names the code field |
| `Tokens.IssueTokenKeepsValid` | api_yamdb/api/views.py:130-134 | issuing a token keeps the store invariant |
| `Tokens.SignUpThenToken` | api_yamdb/api/views.py:179-189 | the code a sign-up mails, sent back with the username, yields a token for that account and activates it |
| `Tokens.CodeReusable` | api_yamdb/api/views.py:130-136 | a used code works again, with no further change to the store and a token naming the same account; the model's token carries only that key, while `AccessToken.for_user` signs a new token on each call |
| `UserEndpoints.GetMe` | api_yamdb/api/views.py:164-167 | `/users/me/` reads only the requester's own stored account; anonymous requesters get 401 |
| `UserEndpoints.PatchMe` | api_yamdb/api/views.py:169-176 | a self edit changes only the requester's own account. It never changes the role, key, superuser or activation flag, and moves the username only to a free name. Any field error of the self-edit checks is a 400 naming exactly the failing fields |
| `UserEndpoints.PatchMeKeepsValid` | api_yamdb/api/views.py:169-176 | a self edit keeps the store invariant |
| `UserEndpoints.PatchMeCannotEscalate` | api_yamdb/api/serializers.py:126 | asking `/users/me/` for the admin role changes no privilege |
| `UserEndpoints.AdminList` | api_yamdb/api/views.py:142-151 | the account list is for admins only |
| `UserEndpoints.AdminRetrieve` | api_yamdb/api/views.py:145-149 | admins read accounts by username; a missing one is 404 |
| `UserEndpoints.AdminCreate` | api_yamdb/api/views.py:142-149 | admins create active accounts with the requested role iff the full validation passes; any field error is a 400 naming exactly the failing fields |
| `UserEndpoints.AdminCreateKeepsValid` | api_yamdb/api/views.py:142-149 | admin creation keeps the store invariant |
| `UserEndpoints.AdminUpdate` | api_yamdb/api/views.py:153-156 | PUT is 405 after the admin check; PATCH edits one account, role included, and no other, iff the partial validation passes; any field error of an existing account's edit is a 400 naming exactly the failing fields |
| `UserEndpoints.AdminUpdateKeepsValid` | api_yamdb/api/views.py:153-156 | an admin edit keeps the store invariant |
| `UserEndpoints.AdminDestroy` | api_yamdb/api/views.py:142-149 | admins delete an account with everything it wrote; the invariant holds |
| `ReviewEndpoints.ReviewTarget` | api_yamdb/api/views.py:89-92 | a review is found exactly when it exists under the path's title, and carries its author |
| `ReviewEndpoints.ListReviews` | api_yamdb/api/views.py:89-92 | every requester gets the list; exactly the reviews of that title are listed |
| `ReviewEndpoints.RetrieveReview` | api_yamdb/api/views.py:89-92 | everyone may read a review, found only under its own title |
| `ReviewEndpoints.CreateReview` | api_yamdb/api/views.py:85-87 | a review is created iff the requester is signed in, the fields are valid, the requester has not reviewed the title, and the title exists. It is stored with the requester as author and the path's title |
| `ReviewEndpoints.CreateReviewKeepsValid` | api_yamdb/reviews/models.py:195-204 | review creation keeps the invariant, one review per author and title included |
| `ReviewEndpoints.CreateReviewOnce` | api_yamdb/api/serializers.py:185-199 | repeating a successful review create is refused by the duplicate check |
| `ReviewEndpoints.UpdateReview` | api_yamdb/api/views.py:78-83 | PUT and PATCH on a review need its author, a moderator or an admin; only text and score change |
| `ReviewEndpoints.UpdateReviewKeepsValid` | api_yamdb/reviews/models.py:179-189 | editing a review keeps scores in range and the invariant |
| `ReviewEndpoints.DestroyReview` | api_yamdb/api/views.py:68-92 | a review is deleted, with its comments, iff it exists under the title and the requester is its author, a moderator or an admin |
| `ReviewEndpoints.CommentTarget` | api_yamdb/api/views.py:112-116 | a comment is found exactly when it exists under the path's review, whatever the title, and carries its author |
| `ReviewEndpoints.ListComments` | api_yamdb/api/views.py:112-116 | every requester gets the list; exactly the review's comments are listed, and the path's title is not compared |
| `ReviewEndpoints.RetrieveComment` | api_yamdb/api/views.py:112-116 | everyone may read a comment, found under its review alone |
| `ReviewEndpoints.CreateComment` | api_yamdb/api/views.py:106-110 | a comment is created iff the requester is signed in, the text is non-blank and the review belongs to the path's title; the requester is its author |
| `ReviewEndpoints.CreateCommentKeepsValid` | api_yamdb/reviews/models.py:207-218 | comment creation keeps the invariant |
| `ReviewEndpoints.UpdateComment` | api_yamdb/api/views.py:95-97 | editing a comment needs its author, a moderator or an admin; only the text changes |
| `ReviewEndpoints.UpdateCommentKeepsValid` | api_yamdb/reviews/models.py:207-218 | editing a comment keeps the invariant |
| `ReviewEndpoints.DestroyComment` | api_yamdb/api/views.py:95-97 | a comment is deleted iff it exists under the review and the requester is its author, a moderator or an admin |
| `TitleEndpoints.YearErrors` | api_yamdb/reviews/models.py:55-62 | only the year field is ever reported, and it is reported exactly when a given year lies outside [1, current year]; null and absence pass |
| `TitleEndpoints.TitleDataErrors` | api_yamdb/api/serializers.py:52-78 | a refused title write names exactly the failing fields among name, year, category and genre, each iff its own check fails; no field error iff all four pass |
| `TitleEndpoints.TitleRow` | api_yamdb/reviews/models.py:49-82 | the stored title keeps the name, year and description, links the named category, and has exactly the listed genres as a set |
| `TitleEndpoints.CreateTitle` | api_yamdb/api/serializers.py:52-78 | admins create a title iff the name is valid and unused, the category and every genre exist, and the year, when given, lies in [1, current year] by the corrected check; any failing field is a 400 naming all of them. Everyone else gets the permission answer |
| `TitleEndpoints.CreateTitleAsWritten` | api_yamdb/api/serializers.py:52-78 | as written: admins only; an explicit null year is a server error whatever the other fields hold. Otherwise a title is created iff the name and link checks pass and the year is bounded by both the import-time year and the current year, and a failure is a 400 naming every failing field |
| `TitleEndpoints.CreateTitleAgreesWhenFresh` | api_yamdb/reviews/models.py:55-62 | with no explicit null year and a server started in the current year, the as-written and the corrected title creation give the same answer |
| `TitleEndpoints.CreateTitleKeepsValid` | api_yamdb/reviews/models.py:49-62 | title creation keeps the invariant |
| `TitleEndpoints.DestroyTitle` | api_yamdb/api/views.py:48-52 | admins delete titles with their reviews and comments; a missing title is 404 |

## Left out

- The CSV loaders, URL configuration, admin registration and migrations. They are data import and framework configuration. The routes the URL configuration declares are modelled as `Gates.RouteAction`.
- Mail delivery is not modelled. Sign-up returns the mail it would send.
- The confirmation-code generator is an oracle of the account's key and e-mail. Its timestamp, expiry and the other hash inputs are not modelled.
- The access token keeps only the account key it names. Signing is not modelled.
- `reviews/validators.py` (`validate_username`) is not part of this model.
- E-mail format checking is not modelled; only its length and uniqueness are.
- The `User.confirmation_code` column is not modelled, because no view writes it.
- The title rating average is not modelled. It is a floating-point database aggregate.
- Filtering, search, pagination, ordering by date and response rendering are library behaviour and are not modelled.
- Authentication itself is not modelled: token verification, and refusing inactive accounts. An `Actor` is whatever the authentication produced.
- Category and genre create, list and delete, and title list, retrieve and update, are not modelled. Their viewsets' permissions and handlers are part of `Gates`. The store keeps the existing category and genre slugs; title creation checks its links against them and stores the slugs. What deleting a category or genre does to titles (`SET_NULL`, the link-table rows) is not modelled.
- `/users/me/` with POST, PUT or DELETE is not modelled. It answers 405 after the authentication check, which is framework dispatch.
- OPTIONS requests are gated by `Gates.Gate`, but the metadata they return is not modelled.
- Concurrency is not modelled. The store is single-threaded, so races between a uniqueness check and the insert cannot occur.
- The current date is a parameter. For the as-written year check, so is the year the server started.
- Serializers.CharFieldErrors: treats only the empty string as blank. The framework trims surrounding whitespace before the blank and length checks, and that trimming is not modelled.
- Serializers.TextFieldErrors: treats only the empty string as blank. The framework trims whitespace before the blank check, so text of spaces only, refused by the source, is accepted in review and comment creates and edits.
- UserEndpoints.PatchMe: the "no other account changes" clauses are stated for stores satisfying `Models.Valid`, which every endpoint keeps. In other stores an account need not be filed under its own username.
- UserEndpoints.AdminUpdate: the same clauses are likewise stated for stores satisfying `Models.Valid`.
- Permissions.OwnerHasObjectPermission: requires the request-level check to have passed. For an anonymous requester on an unsafe method the source would fail reading `is_moderator`, and the framework never asks in that case.

## Findings

| source | as written | input that shows it | evidently intended | confidence | as-written member | corrected member |
|---|---|---|---|---|---|---|
| api_yamdb/api/views.py:200-205 | sign-up validates with `ForUserAndAdminSerializer`, whose `role` field is writable, and saves the account with the requested role | `POST /auth/signup/` with `{"username": "eve", "email": "eve@example.org", "role": "admin"}` on an empty store creates an admin | self-registered accounts get the default `user` role; only admins assign roles, as the read-only role of the self-profile serializer (api_yamdb/api/serializers.py:126) shows | high; not executed | `Registration.SignUpAsWritten`, shown by `Registration.SignUpAsWrittenGrantsAdmin` | `Registration.SignUp`, proved by `Registration.SignUpNeverElevates` |
| api_yamdb/reviews/models.py:59 | the year's upper bound `datetime.date.today().year` is read once, when the models module is imported | server started in 2025; in 2026 a title with year 2026 is refused | the bound is the current year | high; not executed | `Serializers.ValidateYearAsWritten` and `TitleEndpoints.CreateTitleAsWritten`, shown by `Serializers.StaleYearBoundRejectsCurrentYear` | `Serializers.ValidateYear` and `TitleEndpoints.CreateTitle` |
| api_yamdb/api/serializers.py:69-78 | `validate_year` compares the value with the current year even when the value is null, and `None <= year` raises a TypeError | `POST /titles/` by an admin with `"year": null` answers 500 | a null year is accepted, since the model field is nullable | medium; not executed | `Serializers.ValidateYearAsWritten` and `TitleEndpoints.CreateTitleAsWritten`, shown by `Serializers.NullYearCrashes` | `Serializers.ValidateYear` and `TitleEndpoints.CreateTitle` |

=== FILE: accounts.dfy ===
/** The account record of reviews/models.py (class `User`): its field
    bounds, its role properties and the reserved username. */
module Accounts {
  import opened Roles

  /** The primary key of an account; it never changes, while the
      username can be edited. */
  type UserId = nat

  const MAX_USERNAME_LENGTH: nat := 150
  const MAX_EMAIL_LENGTH: nat := 254
  const MAX_NAME_LENGTH: nat := 150

  /** `/users/me/` is routed before `/users/{username}/`, so no account
      may be called this. */
  const RESERVED_NAME: string := "me"

  datatype Account = Account(
    id: UserId,
    username: string,
    email: string,
    firstName: string,
    lastName: string,
    bio: string,
    role: Role,
    isSuperuser: bool,
    isActive: bool)

  /** `User.is_user` */
  predicate IsUser(a: Account) {
    a.role == User
  }

  /** `User.is_moderator` */
  predicate IsModerator(a: Account) {
    a.role == Moderator
  }

  /** `User.is_admin`: the admin role, or the superuser flag whatever the
      role. */
  predicate IsAdmin(a: Account) {
    a.role == Admin || a.isSuperuser
  }

  /** The field bounds an account keeps once it has passed the
      serializers: a non-blank username of at most 150 characters other
      than the reserved one, a non-blank e-mail of at most 254 characters,
      and names of at most 150 characters. */
  predicate WellFormed(a: Account) {
    && 0 < |a.username| <= MAX_USERNAME_LENGTH
    && a.username != RESERVED_NAME
    && 0 < |a.email| <= MAX_EMAIL_LENGTH
    && |a.firstName| <= MAX_NAME_LENGTH
    && |a.lastName| <= MAX_NAME_LENGTH
  }

  /** Exactly one of `is_user` and `is_moderator` and the admin role holds
      of every account. */
  lemma RolePropertiesPartition(a: Account)
    ensures IsUser(a) || IsModerator(a) || a.role == Admin
    ensures !(IsUser(a) && IsModerator(a))
    ensures !(IsUser(a) && a.role == Admin)
    ensures !(IsModerator(a) && a.role == Admin)
  {
  }
}

=== FILE: credentials.dfy ===
/** The two credentials of the sign-up flow, both produced by library code
    that is not part of this model: the e-mailed confirmation code
    (`default_token_generator`) and the access token
    (`AccessToken.for_user`). */
module Credentials {
  import opened Accounts

  /** The account data the code generator's hash depends on that the model
      tracks: the primary key and the e-mail address. Changing the e-mail
      invalidates earlier codes; activating the account does not. */
  datatype CodeKey = CodeKey(id: UserId, email: string)

  function KeyOf(a: Account): CodeKey {
    CodeKey(a.id, a.email)
  }

  /** `make_token`, as an oracle of the key. */
  type CodeGenerator = CodeKey -> string

  /** `check_token`: the code is the one the generator makes for the
      account. */
  function CodeMatches(gen: CodeGenerator, a: Account, code: string): (ok: bool)
    ensures ok <==> code == gen(CodeKey(a.id, a.email))
    ensures forall b: Account :: b.id == a.id && b.email == a.email ==> (ok <==> code == gen(KeyOf(b)))
  {
    code == gen(KeyOf(a))
  }

  /** A signed access token; its signature is left abstract and only the
      account key it names is kept. */
  datatype AccessToken = AccessToken(userId: UserId)
}

=== FILE: gates.dfy ===
/** How the viewsets of api/views.py pick and apply their permissions: the
    action the router gives a request, the per-viewset permission lists
    (with `ReviewViewSet`'s action table and its fallback), and the order
    in which the framework checks request permissions, the handler, the
    object lookup and the object permissions. */
module Gates {
  import opened Outcomes
  import opened Permissions
  import Accounts

  datatype ViewSet = Categories | Genres | Titles | Reviews | Comments | Users

  /** The list route (`/reviews/`) or the detail route (`/reviews/{id}/`). */
  datatype Route = Collection | Detail

  datatype Action = List | Create | Retrieve | Update | PartialUpdate | Destroy | Metadata

  /** The actions a viewset implements: the category and genre viewsets mix
      in only create, destroy and list; the others are full model
      viewsets. */
  function Handlers(vs: ViewSet): set<Action> {
    if vs == Categories || vs == Genres then {List, Create, Destroy}
    else {List, Create, Retrieve, Update, PartialUpdate, Destroy}
  }

  /** The router's method-to-action map of each route; HEAD is served like
      GET. */
  function RouteAction(route: Route, m: Method): Option<Action> {
    match route
    case Collection =>
      if m == Get || m == Head then Some(List)
      else if m == Post then Some(Create)
      else None
    case Detail =>
      if m == Get || m == Head then Some(Retrieve)
      else if m == Put then Some(Update)
      else if m == Patch then Some(PartialUpdate)
      else if m == Delete then Some(Destroy)
      else None
  }

  /** The viewset's `action`: `metadata` for OPTIONS, otherwise the routed
      action when the viewset implements it, and none when the method has
      no handler. */
  function ActionOf(vs: ViewSet, route: Route, m: Method): (r: Option<Action>)
    ensures r == Some(Metadata) <==> m == Options
    ensures r.Some? && r.value != Metadata ==> r.value in Handlers(vs) && r == RouteAction(route, m)
    ensures m != Options && RouteAction(route, m).Some? && RouteAction(route, m).value in Handlers(vs) ==> r.Some?
    ensures m == Head || m == Get ==>
      r == if route == Collection then Some(List) else if Retrieve in Handlers(vs) then Some(Retrieve) else None
  {
    if m == Options then Some(Metadata)
    else
      var a := RouteAction(route, m);
      if a.Some? && a.value in Handlers(vs) then a else None
  }

  /** `ReviewViewSet.permission_classes_by_action` */
  const REVIEW_TABLE: map<Action, seq<Permission>> := map[
    List := [AllowAny],
    Create := [Or(Or(IsOwner, IsAdminOrReadOnly), IsModerator)],
    Retrieve := [AllowAny],
    PartialUpdate := [IsOwner],
    Destroy := [IsOwner]]

  /** `ReviewViewSet.permission_classes` */
  const REVIEW_DEFAULT: seq<Permission> := [IsOwner]

  /** `CommentViewSet.permission_classes_by_action`, which no code reads. */
  const COMMENT_TABLE: map<Action, seq<Permission>> := map[
    List := [AllowAny],
    Create := [Or(Or(IsOwner, IsAdminOrSuperUser), IsModerator)],
    Retrieve := [AllowAny],
    PartialUpdate := [IsOwner],
    Destroy := [Or(IsAdminOrReadOnly, IsModerator)]]

  /** `CommentViewSet.permission_classes` */
  const COMMENT_DEFAULT: seq<Permission> := [IsOwner]

  /** `ReviewViewSet.get_permissions`: the table entry of the action, or the
      default list when the action is not a key of the table. */
  function ReviewPermissions(action: Option<Action>): (perms: seq<Permission>)
    ensures action == Some(List) || action == Some(Retrieve) ==> perms == [AllowAny]
    ensures action == Some(Create) ==> perms == [Or(Or(IsOwner, IsAdminOrReadOnly), IsModerator)]
    ensures action != Some(List) && action != Some(Retrieve) && action != Some(Create) ==> perms == [IsOwner]
  {
    if action.Some? && action.value in REVIEW_TABLE then REVIEW_TABLE[action.value]
    else REVIEW_DEFAULT
  }

  /** The permission list each viewset applies to an action. The comment
      viewset does not override `get_permissions`, so it applies its
      default list to every action. */
  function PermissionsFor(vs: ViewSet, action: Option<Action>): (perms: seq<Permission>)
    ensures |perms| == 1
    ensures vs == Reviews ==> perms == ReviewPermissions(action)
    ensures vs != Reviews ==> !AdmitsAnyone(perms[0])
    ensures vs == Comments ==> perms == [IsOwner]
    ensures vs == Users ==> perms == [IsAdminOrSuperUser]
    ensures vs == Categories || vs == Genres || vs == Titles ==> perms == [IsAdminOrReadOnly]
  {
    match vs
    case Categories => [IsAdminOrReadOnly]
    case Genres => [IsAdminOrReadOnly]
    case Titles => [IsAdminOrReadOnly]
    case Reviews => ReviewPermissions(action)
    case Comments => COMMENT_DEFAULT
    case Users => [IsAdminOrSuperUser]
  }

  /** Every permission of the list grants the request. */
  predicate AllGrant(perms: seq<Permission>, a: Actor, m: Method) {
    forall i :: 0 <= i < |perms| ==> HasPermission(perms[i], a, m)
  }

  /** Every permission of the list grants the object. */
  predicate AllGrantObject(perms: seq<Permission>, a: Actor, m: Method, author: Option<Accounts.UserId>)
    requires AllGrant(perms, a, m)
  {
    forall i :: 0 <= i < |perms| ==> HasObjectPermission(perms[i], a, m, author)
  }

  /** A one-class list grants what its class grants. */
  lemma SingleGrant(p: Permission, a: Actor, m: Method, author: Option<Accounts.UserId>)
    ensures AllGrant([p], a, m) <==> HasPermission(p, a, m)
    ensures HasPermission(p, a, m) ==>
      (AllGrantObject([p], a, m, author) <==> HasObjectPermission(p, a, m, author))
  {
    assert [p][0] == p;
  }

  /** The framework's answer to a refused permission: 401 when no
      credentials were presented, 403 otherwise. */
  function Denied(a: Actor): Error {
    if a.Anonymous? then NotAuthenticated else PermissionDenied
  }

  /** `check_permissions`: the permissions are asked in order and the first
      that refuses ends the request. */
  method CheckPermissions(perms: seq<Permission>, a: Actor, m: Method) returns (refusal: Option<Error>)
    ensures refusal.None? <==> AllGrant(perms, a, m)
    ensures refusal.Some? ==> refusal.value == Denied(a)
  {
    var i := 0;
    while i < |perms|
      invariant 0 <= i <= |perms|
      invariant forall j :: 0 <= j < i ==> HasPermission(perms[j], a, m)
    {
      if !HasPermission(perms[i], a, m) {
        return Some(Denied(a));
      }
      i := i + 1;
    }
    return None;
  }

  /** `check_object_permissions`, asked after `check_permissions` passed. */
  method CheckObjectPermissions(perms: seq<Permission>, a: Actor, m: Method,
                                author: Option<Accounts.UserId>) returns (refusal: Option<Error>)
    requires AllGrant(perms, a, m)
    ensures refusal.None? <==> AllGrantObject(perms, a, m, author)
    ensures refusal.Some? ==> refusal.value == Denied(a)
  {
    var i := 0;
    while i < |perms|
      invariant 0 <= i <= |perms|
      invariant forall j :: 0 <= j < i ==> HasObjectPermission(perms[j], a, m, author)
    {
      if !HasObjectPermission(perms[i], a, m, author) {
        return Some(Denied(a));
      }
      i := i + 1;
    }
    return None;
  }

  /** The object a detail request addresses: missing from the viewset's
      queryset, or present with its author (none for objects that have no
      author). */
  datatype Target = Absent | Present(author: Option<Accounts.UserId>)

  /** The actions that look their object up before acting. */
  predicate IsDetailAction(action: Action) {
    action == Retrieve || action == Update || action == PartialUpdate || action == Destroy
  }

  /** What a viewset does with a request before its handler's own work: the
      request permissions, then the handler (none, or the admin users
      viewset refusing PUT), then for detail actions the object lookup and
      the object permissions. On success, the action the handler runs. */
  function Gate(vs: ViewSet, route: Route, m: Method, a: Actor, target: Target): (r: Result<Action>)
    ensures r.Success? ==> ActionOf(vs, route, m) == Some(r.value)
    ensures r.Success? ==> AllGrant(PermissionsFor(vs, Some(r.value)), a, m)
    ensures r.Success? && IsDetailAction(r.value) ==>
      target.Present? && AllGrantObject(PermissionsFor(vs, Some(r.value)), a, m, target.author)
    ensures r.Failure? ==>
      r.error == Denied(a) || r.error == MethodNotAllowed || r.error == NotFound
  {
    var action := ActionOf(vs, route, m);
    var perms := PermissionsFor(vs, action);
    if !AllGrant(perms, a, m) then Failure(Denied(a))
    else if action.None? then Failure(MethodNotAllowed)
    else if vs == Users && m == Put then Failure(MethodNotAllowed)
    else if !IsDetailAction(action.value) then Success(action.value)
    else if target.Absent? then Failure(NotFound)
    else if AllGrantObject(perms, a, m, target.author) then Success(action.value)
    else Failure(Denied(a))
  }

  /** The access rule, stated per resource kind without reference to
      permission classes: reads of the catalogue and of reviews and
      comments are open to everyone; writing categories, genres and titles
      needs an admin; anyone signed in may create a review or comment, and
      only its author, a moderator or an admin may change or delete it; the
      user administration is for admins only. */
  function PolicyAllows(vs: ViewSet, action: Action, a: Actor, author: Option<Accounts.UserId>): bool
    requires action != Metadata
  {
    var admin := a.Authenticated? && Accounts.IsAdmin(a.user);
    var read := action == List || action == Retrieve;
    var editor := MayEdit(a, author);
    match vs
    case Users => admin
    case Reviews => read || (action == Create && a.Authenticated?) || (action != Create && editor)
    case Comments => read || (action == Create && a.Authenticated?) || (action != Create && editor)
    case _ => read || admin
  }

  /** The permission classes the viewsets apply grant exactly what the
      access rule allows, for every routed action other than OPTIONS and
      the PUT the admin users viewset refuses, on every existing object;
      a refusal is always the permission answer. */
  lemma GateFollowsPolicy(vs: ViewSet, route: Route, m: Method, a: Actor, author: Option<Accounts.UserId>)
    requires ActionOf(vs, route, m).Some? && ActionOf(vs, route, m).value != Metadata
    requires !(vs == Users && m == Put)
    ensures Gate(vs, route, m, a, Present(author)).Success?
        <==> PolicyAllows(vs, ActionOf(vs, route, m).value, a, author)
    ensures Gate(vs, route, m, a, Present(author)).Failure?
        ==> Gate(vs, route, m, a, Present(author)).error == Denied(a)
  {
    var action := ActionOf(vs, route, m).value;
    var perms := PermissionsFor(vs, Some(action));
    SingleGrant(perms[0], a, m, author);
    assert perms == [perms[0]];
    if vs == Reviews && action == Create {
      assert m == Post;
      assert perms[0] == Or(Or(IsOwner, IsAdminOrReadOnly), IsModerator);
      assert HasPermission(Or(IsOwner, IsAdminOrReadOnly), a, m) <==> a.Authenticated?;
    }
  }

  /** An anonymous requester is refused every unsafe method on every
      viewset, with 401. */
  lemma AnonymousOnlyReads(vs: ViewSet, route: Route, m: Method, target: Target)
    requires !IsSafe(m)
    ensures Gate(vs, route, m, Anonymous, target) == Failure(NotAuthenticated)
  {
    var action := ActionOf(vs, route, m);
    var perms := PermissionsFor(vs, action);
    if vs == Reviews && action == Some(Create) {
      assert perms[0] == Or(Or(IsOwner, IsAdminOrReadOnly), IsModerator);
    }
    assert !AdmitsAnyone(perms[0]);
    assert !AllGrant(perms, Anonymous, m);
  }

  /** `ReviewViewSet` creates: the `|` of three classes collapses to
      "authenticated" for POST. */
  lemma ReviewCreateNeedsOnlyAuthentication(a: Actor)
    ensures AllGrant(ReviewPermissions(Some(Create)), a, Post) <==> a.Authenticated?
  {
    var p := Or(Or(IsOwner, IsAdminOrReadOnly), IsModerator);
    assert ReviewPermissions(Some(Create)) == [p];
    SingleGrant(p, a, Post, None);
    assert HasPermission(Or(IsOwner, IsAdminOrReadOnly), a, Post) <==> a.Authenticated?;
  }

  /** An action missing from the review table, PUT's `update` and OPTIONS'
      `metadata` among them, gets the default `[IsOwner]`. */
  lemma ReviewFallback(action: Option<Action>)
    requires action.None? || action.value !in REVIEW_TABLE
    ensures ReviewPermissions(action) == [IsOwner]
    ensures Update !in REVIEW_TABLE && Metadata !in REVIEW_TABLE
  {
  }

  /** The comment viewset applies `[IsOwner]` to every action, whatever its
      unread table says. */
  lemma CommentTableNeverConsulted(action: Option<Action>)
    ensures PermissionsFor(Comments, action) == [IsOwner]
  {
  }

  /** The unread table would differ: its destroy entry refuses an ordinary
      author deleting their own comment, which the applied `[IsOwner]`
      allows. */
  lemma CommentTableWouldRefuseAuthors(a: Actor)
    requires a.Authenticated? && a.user.role == Roles.User && !a.user.isSuperuser
    ensures Gate(Comments, Detail, Delete, a, Present(Some(a.user.id))) == Success(Destroy)
    ensures !AllGrant(COMMENT_TABLE[Destroy], a, Delete)
  {
    var p := Or(IsAdminOrReadOnly, IsModerator);
    assert COMMENT_TABLE[Destroy] == [p];
    SingleGrant(p, a, Delete, None);
    SingleGrant(IsOwner, a, Delete, Some(a.user.id));
  }

  /** Reads of reviews and comments are open to everyone: a list always
      passes, and a detail read passes exactly when the object exists. */
  lemma OpenReadGate(vs: ViewSet, route: Route, a: Actor, target: Target)
    requires vs == Reviews || vs == Comments
    ensures Gate(vs, route, Get, a, target) ==
      if route == Detail && target.Absent? then Failure(NotFound)
      else Success(RouteAction(route, Get).value)
  {
    var action := ActionOf(vs, route, Get);
    var p := PermissionsFor(vs, action)[0];
    assert PermissionsFor(vs, action) == [p];
    SingleGrant(p, a, Get, if target.Present? then target.author else None);
  }

  /** Creating a review or a comment needs a signed-in requester and
      nothing more. */
  lemma AuthenticatedCreateGate(vs: ViewSet, a: Actor, target: Target)
    requires vs == Reviews || vs == Comments
    ensures Gate(vs, Collection, Post, a, target) ==
      if a.Anonymous? then Failure(NotAuthenticated) else Success(Create)
  {
    if vs == Reviews {
      ReviewCreateNeedsOnlyAuthentication(a);
    } else {
      SingleGrant(IsOwner, a, Post, None);
    }
  }

  /** Changing or deleting a review or a comment: 401 for an anonymous
      requester, 404 for a missing object, then the author, moderators and
      admins pass and everyone else gets 403. */
  lemma AuthoredDetailGate(vs: ViewSet, m: Method, a: Actor, target: Target)
    requires vs == Reviews || vs == Comments
    requires m == Put || m == Patch || m == Delete
    ensures Gate(vs, Detail, m, a, target) ==
      if a.Anonymous? then Failure(NotAuthenticated)
      else if target.Absent? then Failure(NotFound)
      else if MayEdit(a, target.author) then Success(RouteAction(Detail, m).value)
      else Failure(PermissionDenied)
  {
    var action := ActionOf(vs, Detail, m);
    assert PermissionsFor(vs, action) == [IsOwner];
    SingleGrant(IsOwner, a, m, if target.Present? then target.author else None);
  }

  /** Creating and deleting titles is for admins; a missing title is
      reported only to them. */
  lemma TitleWriteGate(route: Route, m: Method, a: Actor, target: Target)
    requires (route == Collection && m == Post) || (route == Detail && m == Delete)
    ensures Gate(Titles, route, m, a, target) ==
      if !(a.Authenticated? && Accounts.IsAdmin(a.user)) then Failure(Denied(a))
      else if route == Detail && target.Absent? then Failure(NotFound)
      else Success(RouteAction(route, m).value)
  {
    SingleGrant(IsAdminOrReadOnly, a, m, if target.Present? then target.author else None);
  }

  /** The admin users viewset, action by action: the admin-only permission
      first, then 405 for a method without handler and for PUT, then 404 for
      a missing account; the permission class has no object check. */
  lemma UsersGate(route: Route, m: Method, a: Actor, target: Target)
    ensures Gate(Users, route, m, a, target) ==
      if !AdminOrSuperUserHasPermission(a) then Failure(Denied(a))
      else if ActionOf(Users, route, m).None? || m == Put then Failure(MethodNotAllowed)
      else if IsDetailAction(ActionOf(Users, route, m).value) && target.Absent? then Failure(NotFound)
      else Success(ActionOf(Users, route, m).value)
  {
    SingleGrant(IsAdminOrSuperUser, a, m, if target.Present? then target.author else None);
  }

  /** The admin users viewset refuses PUT with 405 once the requester passed
      its admin-only permission, and with the permission answer before. */
  lemma UsersRefusePut(a: Actor, target: Target)
    ensures Gate(Users, Detail, Put, a, target)
         == if AdminOrSuperUserHasPermission(a) then Failure(MethodNotAllowed) else Failure(Denied(a))
  {
    SingleGrant(IsAdminOrSuperUser, a, Put, None);
  }

  /** Every user administration request, OPTIONS included, needs an
      authenticated admin or superuser. */
  lemma UsersNeedAdmin(route: Route, m: Method, a: Actor, target: Target)
    requires !AdminOrSuperUserHasPermission(a)
    ensures Gate(Users, route, m, a, target) == Failure(Denied(a))
  {
    SingleGrant(IsAdminOrSuperUser, a, m, None);
  }
}

=== FILE: models.dfy ===
/** The records of reviews/models.py that the access rules act on (titles,
    reviews, comments and the accounts), the store holding them, the
    invariant the endpoints keep, and the cascading deletes. */
module Models {
  import opened Outcomes
  import opened Accounts

  type TitleId = nat
  type ReviewId = nat
  type CommentId = nat

  const MIN_SCORE: int := 1
  const MAX_SCORE: int := 10
  const MAX_TITLE_NAME_LENGTH: nat := 256

  /** A title with the slug of its category (the foreign key is nullable)
      and the slugs of its genres. */
  datatype Title = Title(name: string, year: Option<int>, description: Option<string>,
                         category: Option<string>, genre: set<string>)

  datatype Review = Review(title: TitleId, author: UserId, text: string, score: int)

  datatype Comment = Comment(review: ReviewId, author: UserId, text: string)

  /** The database: accounts by username, the other tables by primary key,
      the next key each table hands out (keys are never reused), and the
      slugs of the existing categories and genres. */
  datatype Db = Db(
    users: map<string, Account>,
    titles: map<TitleId, Title>,
    reviews: map<ReviewId, Review>,
    comments: map<CommentId, Comment>,
    nextUserId: UserId,
    nextTitleId: TitleId,
    nextReviewId: ReviewId,
    nextCommentId: CommentId,
    categories: set<string>,
    genres: set<string>)

  /** The store with no rows. */
  const EMPTY: Db := Db(map[], map[], map[], map[], 0, 0, 0, 0, {}, {})

  /** The primary keys of the accounts. */
  function UserIds(users: map<string, Account>): set<UserId> {
    set u | u in users :: users[u].id
  }

  /** Some account other than `except` has this e-mail address. */
  predicate EmailInUse(users: map<string, Account>, email: string, except: Option<string>) {
    exists u :: u in users && Some(u) != except && users[u].email == email
  }

  /** An account with exactly this username and this e-mail exists. */
  predicate PairExists(users: map<string, Account>, username: string, email: string) {
    username in users && users[username].email == email
  }

  /** A review by this author of this title exists. */
  predicate HasReviewBy(reviews: map<ReviewId, Review>, author: UserId, title: TitleId) {
    exists r :: r in reviews && reviews[r].author == author && reviews[r].title == title
  }

  predicate ScoreInRange(score: int) {
    MIN_SCORE <= score <= MAX_SCORE
  }

  /** Accounts are filed under their usernames, satisfy the field bounds,
      have keys below the counter, and no two share a key or an e-mail. */
  predicate UsersValid(users: map<string, Account>, nextId: UserId) {
    && (forall u :: u in users ==> users[u].username == u && users[u].id < nextId && WellFormed(users[u]))
    && (forall u, v :: u in users && v in users && u != v ==>
          users[u].id != users[v].id && users[u].email != users[v].email)
  }

  /** Title names are unique, non-blank and at most 256 characters; a year,
      when present, is at least 1. */
  predicate TitlesValid(titles: map<TitleId, Title>, nextId: TitleId) {
    && (forall t :: t in titles ==>
          t < nextId && 0 < |titles[t].name| <= MAX_TITLE_NAME_LENGTH &&
          (titles[t].year.Some? ==> 1 <= titles[t].year.value))
    && (forall t, q :: t in titles && q in titles && t != q ==> titles[t].name != titles[q].name)
  }

  /** The `unique_author_title` constraint. */
  predicate OneReviewPerAuthorAndTitle(reviews: map<ReviewId, Review>) {
    forall r, q :: r in reviews && q in reviews && r != q ==>
      !(reviews[r].author == reviews[q].author && reviews[r].title == reviews[q].title)
  }

  /** Every review belongs to an existing title and account and has a
      score in [1, 10]; at most one per author and title. */
  predicate ReviewsValid(db: Db) {
    && (forall r :: r in db.reviews ==>
          r < db.nextReviewId && db.reviews[r].title in db.titles &&
          db.reviews[r].author in UserIds(db.users) && ScoreInRange(db.reviews[r].score))
    && OneReviewPerAuthorAndTitle(db.reviews)
  }

  /** Every comment belongs to an existing review and account. */
  predicate CommentsValid(db: Db) {
    forall c :: c in db.comments ==>
      c < db.nextCommentId && db.comments[c].review in db.reviews &&
      db.comments[c].author in UserIds(db.users)
  }

  /** The invariant every endpoint keeps. */
  predicate Valid(db: Db) {
    && UsersValid(db.users, db.nextUserId)
    && TitlesValid(db.titles, db.nextTitleId)
    && ReviewsValid(db)
    && CommentsValid(db)
  }

  /** The empty store satisfies the invariant. */
  lemma EmptyValid()
    ensures Valid(EMPTY)
  {
  }

  /** The account that holds a key, when usernames and keys are in one to
      one correspondence. */
  lemma UserIdsMember(users: map<string, Account>, u: string)
    requires u in users
    ensures users[u].id in UserIds(users)
  {
  }

  /** Keeping the accounts but one, and changing no key, keeps every other
      account's key. */
  lemma UserIdsAfterRemoval(users: map<string, Account>, nextId: UserId, name: string)
    requires name in users
    ensures UsersValid(users, nextId) ==> UserIds(users - {name}) == UserIds(users) - {users[name].id}
  {
    if !UsersValid(users, nextId) { return; }
    var rest := users - {name};
    forall id | id in UserIds(users) - {users[name].id}
      ensures id in UserIds(rest)
    {
      var u :| u in users && users[u].id == id;
      assert u != name;
      assert rest[u] == users[u];
    }
  }

  /** Storing an account under a username not yet in use adds its key and
      keeps the others. */
  lemma UserIdsAfterInsert(users: map<string, Account>, a: Account)
    requires a.username !in users
    ensures UserIds(users[a.username := a]) == UserIds(users) + {a.id}
  {
    var grown := users[a.username := a];
    forall id | id in UserIds(users)
      ensures id in UserIds(grown)
    {
      var u :| u in users && users[u].id == id;
      assert grown[u] == users[u];
    }
    assert grown[a.username].id == a.id;
  }

  /** Removes the given reviews and, by `on_delete=CASCADE`, their
      comments. */
  function WithoutReviews(db: Db, dead: set<ReviewId>): (db': Db)
    ensures db'.users == db.users && db'.titles == db.titles
    ensures forall r :: r in db'.reviews ==> r in db.reviews && r !in dead && db'.reviews[r] == db.reviews[r]
    ensures forall r :: r in db.reviews && r !in dead ==> r in db'.reviews
    ensures forall c :: c in db'.comments ==>
      c in db.comments && db'.comments[c] == db.comments[c] && db.comments[c].review !in dead
    ensures forall c :: c in db.comments && db.comments[c].review !in dead ==> c in db'.comments
  {
    db.(reviews := map r | r in db.reviews && r !in dead :: db.reviews[r],
        comments := map c | c in db.comments && db.comments[c].review !in dead :: db.comments[c])
  }

  /** Removing reviews and their comments keeps the invariant. */
  lemma WithoutReviewsValid(db: Db, dead: set<ReviewId>)
    ensures Valid(db) ==> Valid(WithoutReviews(db, dead))
  {
    if !Valid(db) { return; }
    var d := WithoutReviews(db, dead);
    assert OneReviewPerAuthorAndTitle(d.reviews) by {
      forall r, q | r in d.reviews && q in d.reviews && r != q
        ensures !(d.reviews[r].author == d.reviews[q].author && d.reviews[r].title == d.reviews[q].title)
      {
        assert d.reviews[r] == db.reviews[r] && d.reviews[q] == db.reviews[q];
      }
    }
  }

  /** Deleting a review deletes its comments; nothing else changes. */
  function DeleteReview(db: Db, id: ReviewId): (db': Db)
    requires id in db.reviews
    ensures id !in db'.reviews
    ensures db'.users == db.users && db'.titles == db.titles
    ensures forall r :: r in db.reviews && r != id ==> r in db'.reviews && db'.reviews[r] == db.reviews[r]
    ensures forall c :: c in db'.comments ==> db'.comments[c].review != id
    ensures forall c :: c in db.comments && db.comments[c].review != id ==>
      c in db'.comments && db'.comments[c] == db.comments[c]
    ensures forall r :: r in db'.reviews ==> r in db.reviews
    ensures forall c :: c in db'.comments ==> c in db.comments
    ensures Valid(db) ==> Valid(db')
  {
    WithoutReviewsValid(db, {id});
    WithoutReviews(db, {id})
  }

  /** Deleting a title deletes its reviews and their comments; the other
      titles, reviews and comments stay. */
  function DeleteTitle(db: Db, id: TitleId): (db': Db)
    requires id in db.titles
    ensures id !in db'.titles && db'.users == db.users
    ensures forall t :: t in db.titles && t != id ==> t in db'.titles && db'.titles[t] == db.titles[t]
    ensures forall r :: r in db'.reviews ==> db'.reviews[r].title != id
    ensures forall r :: r in db.reviews && db.reviews[r].title != id ==>
      r in db'.reviews && db'.reviews[r] == db.reviews[r]
    ensures forall c :: c in db'.comments ==>
      (c in db.comments && db'.comments[c] == db.comments[c] &&
       !(db.comments[c].review in db.reviews && db.reviews[db.comments[c].review].title == id))
    ensures forall c ::
      (c in db.comments &&
       !(db.comments[c].review in db.reviews && db.reviews[db.comments[c].review].title == id)) ==>
      c in db'.comments && db'.comments[c] == db.comments[c]
    ensures forall r :: r in db'.reviews ==> r in db.reviews
    ensures Valid(db) ==> Valid(db')
  {
    var dead := set r | r in db.reviews && db.reviews[r].title == id;
    var d := WithoutReviews(db, dead);
    WithoutReviewsValid(db, dead);
    d.(titles := d.titles - {id})
  }

  /** Deleting an account deletes its reviews and comments and the comments
      on its reviews; no row refers to it afterwards. */
  function DeleteUser(db: Db, name: string): (db': Db)
    requires name in db.users
    ensures name !in db'.users && db'.titles == db.titles
    ensures forall u :: u in db.users && u != name ==> u in db'.users && db'.users[u] == db.users[u]
    ensures forall r :: r in db'.reviews ==>
      (r in db.reviews && db'.reviews[r] == db.reviews[r] && db'.reviews[r].author != db.users[name].id)
    ensures forall c :: c in db'.comments ==>
      (c in db.comments && db'.comments[c] == db.comments[c] && db'.comments[c].author != db.users[name].id &&
       !(db.comments[c].review in db.reviews && db.reviews[db.comments[c].review].author == db.users[name].id))
    ensures forall r :: r in db.reviews && db.reviews[r].author != db.users[name].id ==> r in db'.reviews
    ensures forall c ::
      (c in db.comments && db.comments[c].author != db.users[name].id &&
       !(db.comments[c].review in db.reviews && db.reviews[db.comments[c].review].author == db.users[name].id)) ==>
      c in db'.comments && db'.comments[c] == db.comments[c]
    ensures forall u :: u in db'.users ==> u in db.users
    ensures Valid(db) ==> Valid(db')
  {
    var uid := db.users[name].id;
    var d := WithoutReviews(db, ReviewsBy(db.reviews, uid));
    DeleteUserValid(db, name);
    WithoutUser(d, name, uid)
  }

  /** The reviews an account wrote. */
  function ReviewsBy(reviews: map<ReviewId, Review>, author: UserId): set<ReviewId> {
    set r | r in reviews && reviews[r].author == author
  }

  /** Removes an account and the comments it wrote. */
  function WithoutUser(db: Db, name: string, uid: UserId): (db': Db)
    ensures db'.users == db.users - {name}
    ensures db'.titles == db.titles && db'.reviews == db.reviews
    ensures forall c :: c in db'.comments <==> c in db.comments && db.comments[c].author != uid
    ensures forall c :: c in db'.comments ==> db'.comments[c] == db.comments[c]
  {
    db.(users := db.users - {name},
        comments := map c | c in db.comments && db.comments[c].author != uid :: db.comments[c])
  }

  /** Deleting an account with its reviews and comments keeps the
      invariant. */
  lemma DeleteUserValid(db: Db, name: string)
    requires name in db.users
    ensures var uid := db.users[name].id;
      Valid(db) ==> Valid(WithoutUser(WithoutReviews(db, ReviewsBy(db.reviews, uid)), name, uid))
  {
    if !Valid(db) { return; }
    var uid := db.users[name].id;
    var d := WithoutReviews(db, ReviewsBy(db.reviews, uid));
    WithoutReviewsValid(db, ReviewsBy(db.reviews, uid));
    assert forall r :: r in d.reviews ==> d.reviews[r].author != uid;
    WithoutUserUsersValid(d, name);
    WithoutUserReviewsValid(d, name, uid);
    WithoutUserCommentsValid(d, name, uid);
  }

  /** Removing an account keeps the account invariant and removes exactly
      its key. */
  lemma WithoutUserUsersValid(d: Db, name: string)
    requires name in d.users && UsersValid(d.users, d.nextUserId)
    ensures var e := WithoutUser(d, name, d.users[name].id);
      UsersValid(e.users, e.nextUserId) && UserIds(e.users) == UserIds(d.users) - {d.users[name].id}
  {
    UserIdsAfterRemoval(d.users, d.nextUserId, name);
  }

  /** With none of its reviews left, removing an account keeps the review
      invariant. */
  lemma WithoutUserReviewsValid(d: Db, name: string, uid: UserId)
    requires name in d.users && d.users[name].id == uid
    requires UsersValid(d.users, d.nextUserId) && ReviewsValid(d)
    requires forall r :: r in d.reviews ==> d.reviews[r].author != uid
    ensures ReviewsValid(WithoutUser(d, name, uid))
  {
    var e := WithoutUser(d, name, uid);
    UserIdsAfterRemoval(d.users, d.nextUserId, name);
    forall r | r in e.reviews
      ensures e.reviews[r].author in UserIds(e.users)
    {
      assert r in d.reviews;
    }
  }

  /** Removing an account and its own comments keeps the comment
      invariant. */
  lemma WithoutUserCommentsValid(d: Db, name: string, uid: UserId)
    requires name in d.users && d.users[name].id == uid
    requires UsersValid(d.users, d.nextUserId) && CommentsValid(d)
    ensures CommentsValid(WithoutUser(d, name, uid))
  {
    var e := WithoutUser(d, name, uid);
    UserIdsAfterRemoval(d.users, d.nextUserId, name);
    forall c | c in e.comments
      ensures c < e.nextCommentId && e.comments[c].review in e.reviews
      ensures e.comments[c].author in UserIds(e.users)
    {
      assert c in d.comments && d.comments[c].author != uid;
    }
  }


  /** Deleting a comment; no row refers to comments. */
  function DeleteComment(db: Db, id: CommentId): (db': Db)
    ensures id !in db'.comments
    ensures db'.users == db.users && db'.titles == db.titles && db'.reviews == db.reviews
    ensures forall c :: c in db.comments && c != id ==> c in db'.comments && db'.comments[c] == db.comments[c]
    ensures forall c :: c in db'.comments ==> c in db.comments
    ensures Valid(db) ==> Valid(db')
  {
    DeleteCommentValid(db, id);
    db.(comments := db.comments - {id})
  }

  /** Removing a comment keeps the invariant. */
  lemma DeleteCommentValid(db: Db, id: CommentId)
    ensures Valid(db) ==> Valid(db.(comments := db.comments - {id}))
  {
    if !Valid(db) { return; }
    var d := db.(comments := db.comments - {id});
    assert CommentsValid(d) by {
      forall c | c in d.comments
        ensures c < d.nextCommentId && d.comments[c].review in d.reviews && d.comments[c].author in UserIds(d.users)
      {
        assert c in db.comments;
      }
    }
  }

  /** Inserts an account under the next key. */
  function AddAccount(db: Db, a: Account): (db': Db)
  {
    db.(users := db.users[a.username := a.(id := db.nextUserId)], nextUserId := db.nextUserId + 1)
  }

  /** Inserting a well-formed account whose username and e-mail are unused
      keeps the invariant. */
  lemma AddAccountValid(db: Db, a: Account)
    requires WellFormed(a)
    requires a.username !in db.users && !EmailInUse(db.users, a.email, None)
    ensures Valid(db) ==> Valid(AddAccount(db, a))
  {
    if !Valid(db) { return; }
    var acc := a.(id := db.nextUserId);
    var d := AddAccount(db, a);
    UserIdsAfterInsert(db.users, acc);
    forall u | u in db.users
      ensures db.users[u].id != acc.id && db.users[u].email != acc.email
    {
    }
  }

  /** Stores an edited account, under its possibly new username. */
  function ReplaceAccount(db: Db, previous: string, a: Account): (db': Db)
  {
    db.(users := (db.users - {previous})[a.username := a])
  }

  /** Editing an account without changing its key, into a well-formed one
      whose username and e-mail no other account has, keeps the
      invariant. */
  lemma ReplaceAccountValid(db: Db, previous: string, a: Account)
    requires previous in db.users && WellFormed(a)
    requires a.id == db.users[previous].id
    requires a.username == previous || a.username !in db.users
    requires !EmailInUse(db.users, a.email, Some(previous))
    ensures Valid(db) ==> Valid(ReplaceAccount(db, previous, a))
    ensures Valid(db) ==> UserIds(ReplaceAccount(db, previous, a).users) == UserIds(db.users)
  {
    if !Valid(db) { return; }
    var rest := db.users - {previous};
    UserIdsAfterRemoval(db.users, db.nextUserId, previous);
    UserIdsAfterInsert(rest, a);
    forall u | u in rest
      ensures rest[u].id != a.id && rest[u].email != a.email
    {
      assert u != previous;
    }
  }

  /** Inserts a review under the next key. */
  function AddReview(db: Db, rv: Review): (db': Db)
  {
    db.(reviews := db.reviews[db.nextReviewId := rv], nextReviewId := db.nextReviewId + 1)
  }

  /** Inserting a review of an existing title by an existing account with a
      score in range, when that author has not reviewed that title, keeps
      the invariant. */
  lemma AddReviewValid(db: Db, rv: Review)
    requires rv.title in db.titles && rv.author in UserIds(db.users)
    requires ScoreInRange(rv.score) && !HasReviewBy(db.reviews, rv.author, rv.title)
    ensures Valid(db) ==> Valid(AddReview(db, rv))
  {
    if !Valid(db) { return; }
    var d := AddReview(db, rv);
    assert db.nextReviewId !in db.reviews;
    assert OneReviewPerAuthorAndTitle(d.reviews) by {
      forall r, q | r in d.reviews && q in d.reviews && r != q
        ensures !(d.reviews[r].author == d.reviews[q].author && d.reviews[r].title == d.reviews[q].title)
      {
        if r == db.nextReviewId {
          assert q in db.reviews;
        } else if q == db.nextReviewId {
          assert r in db.reviews;
        }
      }
    }
  }

  /** Changing a review's text or score keeps the invariant when the score
      stays in range; title and author are never changed. */
  lemma SetReviewValid(db: Db, id: ReviewId, text: string, score: int)
    requires id in db.reviews && ScoreInRange(score)
    ensures Valid(db) ==> Valid(db.(reviews := db.reviews[id := db.reviews[id].(text := text, score := score)]))
  {
  }

  /** Inserts a comment under the next key. */
  function AddComment(db: Db, c: Comment): (db': Db)
  {
    db.(comments := db.comments[db.nextCommentId := c], nextCommentId := db.nextCommentId + 1)
  }

  /** Inserting a comment on an existing review by an existing account
      keeps the invariant. */
  lemma AddCommentValid(db: Db, c: Comment)
    requires c.review in db.reviews && c.author in UserIds(db.users)
    ensures Valid(db) ==> Valid(AddComment(db, c))
  {
    if !Valid(db) { return; }
    var d := AddComment(db, c);
    assert UsersValid(d.users, d.nextUserId) && TitlesValid(d.titles, d.nextTitleId) && ReviewsValid(d);
    assert CommentsValid(d) by {
      forall k | k in d.comments
        ensures k < d.nextCommentId && d.comments[k].review in d.reviews && d.comments[k].author in UserIds(d.users)
      {
        if k != db.nextCommentId {
          assert k in db.comments;
        }
      }
    }
  }

  /** Inserts a title under the next key. */
  function AddTitle(db: Db, t: Title): (db': Db)
  {
    db.(titles := db.titles[db.nextTitleId := t], nextTitleId := db.nextTitleId + 1)
  }

  /** Some title has this name. */
  predicate TitleNameInUse(titles: map<TitleId, Title>, name: string) {
    exists t :: t in titles && titles[t].name == name
  }

  /** Inserting a title with an unused, non-blank name of at most 256
      characters and a year of at least 1 keeps the invariant. */
  lemma AddTitleValid(db: Db, t: Title)
    requires 0 < |t.name| <= MAX_TITLE_NAME_LENGTH && !TitleNameInUse(db.titles, t.name)
    requires t.year.Some? ==> 1 <= t.year.value
    ensures Valid(db) ==> Valid(AddTitle(db, t))
  {
    if !Valid(db) { return; }
    assert db.nextTitleId !in db.titles;
  }

  /** Changing an account's activation flag keeps the invariant. */
  lemma SetActiveValid(db: Db, name: string, active: bool)
    requires name in db.users
    ensures Valid(db) ==> Valid(db.(users := db.users[name := db.users[name].(isActive := active)]))
    ensures UserIds(db.users[name := db.users[name].(isActive := active)]) == UserIds(db.users)
  {
    var grown := db.users[name := db.users[name].(isActive := active)];
    forall id | id in UserIds(db.users)
      ensures id in UserIds(grown)
    {
      var u :| u in db.users && db.users[u].id == id;
      assert u in grown && grown[u].id == id;
    }
  }
}

=== FILE: outcomes.dfy ===
/** Values shared by every endpoint of the review platform: an optional
    value, the request fields a validation error can name, the error kinds
    the endpoints answer with, and a result carrying a value or an error. */
module Outcomes {

  datatype Option<+T> = None | Some(value: T) {
    /** The wrapped value, or `default` when there is none. */
    function GetOr(default: T): T {
      match this
      case Some(v) => v
      case None => default
    }
  }

  /** The request fields a validation error is reported against.
      `NonField` stands for errors a serializer's `validate` raises. */
  datatype Field =
    | Username | Email | FirstName | LastName | Role
    | ConfirmationCode | Text | Score | Name | Year | Category | Genre | NonField

  /** The outcomes that end a request without success. */
  datatype Error =
    | ValidationError(fields: set<Field>)  // 400, one entry per failing field
    | BadConfirmationCode                  // 400 from the token endpoint
    | NotAuthenticated                     // 401
    | PermissionDenied                     // 403
    | NotFound                             // 404
    | MethodNotAllowed                     // 405
    | ServerError                          // 500, an uncaught exception

  datatype Result<+T> = Success(value: T) | Failure(error: Error)
}

=== FILE: permissions.dfy ===
/** The permission classes of api/permissions.py, together with the two
    classes of the REST framework the views use (`AllowAny`,
    `IsAuthenticated`) and the `|` composition of classes. */
module Permissions {
  import opened Outcomes
  import Roles
  import Accounts

  datatype Method = Get | Head | Options | Post | Put | Patch | Delete

  /** `SAFE_METHODS` */
  predicate IsSafe(m: Method) {
    m == Get || m == Head || m == Options
  }

  /** The requester: anonymous, or an account the authentication loaded. */
  datatype Actor = Anonymous | Authenticated(user: Accounts.Account)

  /** `obj.author == request.user`; an anonymous requester is nobody's
      author, and objects without an author have none. */
  predicate IsAuthor(a: Actor, author: Option<Accounts.UserId>) {
    a.Authenticated? && author == Some(a.user.id)
  }

  /** Whether the requester may change an object with this author: a
      signed-in author, moderator or admin. */
  predicate MayEdit(a: Actor, author: Option<Accounts.UserId>) {
    a.Authenticated? && (IsAuthor(a, author) || Accounts.IsModerator(a.user) || Accounts.IsAdmin(a.user))
  }

  /** `IsAdminOrSuperUser.has_permission` */
  predicate AdminOrSuperUserHasPermission(a: Actor) {
    a.Authenticated? && Accounts.IsAdmin(a.user)
  }

  /** `IsAdminOrReadOnly.has_permission` */
  predicate AdminOrReadOnlyHasPermission(a: Actor, m: Method) {
    IsSafe(m) || (a.Authenticated? && Accounts.IsAdmin(a.user))
  }

  /** `IsModerator.has_permission` */
  predicate ModeratorHasPermission(a: Actor) {
    a.Authenticated? && Accounts.IsModerator(a.user)
  }

  /** `IsUser.has_permission` */
  predicate UserHasPermission(a: Actor) {
    a.Authenticated? && Accounts.IsUser(a.user)
  }

  /** `IsOwner.has_permission` */
  predicate OwnerHasPermission(a: Actor, m: Method) {
    IsSafe(m) || a.Authenticated?
  }

  /** `IsOwner.has_object_permission`. An anonymous requester has no
      `is_moderator` attribute, so the source can only evaluate this for a
      safe method or an authenticated requester, which is what
      `IsOwner.has_permission` lets through. */
  function OwnerHasObjectPermission(a: Actor, m: Method, author: Option<Accounts.UserId>): (granted: bool)
    requires OwnerHasPermission(a, m)
    ensures IsSafe(m) ==> granted
    ensures !IsSafe(m) ==> (granted <==> MayEdit(a, author))
  {
    || IsSafe(m)
    || IsAuthor(a, author)
    || Accounts.IsModerator(a.user)
    || Accounts.IsAdmin(a.user)
  }

  /** A permission class, or two combined with `|`. */
  datatype Permission =
    | AllowAny
    | IsAuthenticated
    | IsAdminOrSuperUser
    | IsAdminOrReadOnly
    | IsModerator
    | IsUser
    | IsOwner
    | Or(left: Permission, right: Permission)

  /** True when `AllowAny` occurs in the permission. */
  predicate AdmitsAnyone(p: Permission) {
    match p
    case AllowAny => true
    case Or(l, r) => AdmitsAnyone(l) || AdmitsAnyone(r)
    case _ => false
  }

  /** `has_permission` of a permission. No class of the project lets an
      anonymous requester use an unsafe method: only `AllowAny` does. */
  function HasPermission(p: Permission, a: Actor, m: Method): (granted: bool)
    ensures granted && a.Anonymous? && !IsSafe(m) ==> AdmitsAnyone(p)
  {
    match p
    case AllowAny => true
    case IsAuthenticated => a.Authenticated?
    case IsAdminOrSuperUser => AdminOrSuperUserHasPermission(a)
    case IsAdminOrReadOnly => AdminOrReadOnlyHasPermission(a, m)
    case IsModerator => ModeratorHasPermission(a)
    case IsUser => UserHasPermission(a)
    case IsOwner => OwnerHasPermission(a, m)
    case Or(l, r) => HasPermission(l, a, m) || HasPermission(r, a, m)
  }

  /** True when `IsOwner`, the one class with an object check of its own,
      occurs in the permission. */
  predicate HasObjectCheck(p: Permission) {
    match p
    case IsOwner => true
    case Or(l, r) => HasObjectCheck(l) || HasObjectCheck(r)
    case _ => false
  }

  /** `has_object_permission` of a permission; the framework asks it only
      after `has_permission` passed. Classes that do not define it inherit
      a method that grants. For `|` an operand is taken to grant the object
      only if it also grants the request, as recent REST framework releases
      do; the version in use is not part of this model, and no `|` in the
      views reaches an object check (they sit on `create` entries only, or
      in a table nothing reads), so the choice has no effect here. */
  function HasObjectPermission(p: Permission, a: Actor, m: Method,
                               author: Option<Accounts.UserId>): (granted: bool)
    requires HasPermission(p, a, m)
    ensures !HasObjectCheck(p) ==> granted
    ensures IsSafe(m) ==> granted
    ensures MayEdit(a, author) ==> granted
  {
    match p
    case IsOwner => OwnerHasObjectPermission(a, m, author)
    case Or(l, r) =>
      || (HasPermission(l, a, m) && HasObjectPermission(l, a, m, author))
      || (HasPermission(r, a, m) && HasObjectPermission(r, a, m, author))
    case _ => true
  }

  /** `IsAdminOrSuperUser` grants exactly the authenticated admins and
      superusers, whatever the method; anonymous requesters and
      moderators who are not superusers are refused. */
  lemma AdminOrSuperUserIgnoresMethod(a: Actor, m: Method)
    ensures HasPermission(IsAdminOrSuperUser, a, m)
        <==> a.Authenticated? && (a.user.role == Roles.Admin || a.user.isSuperuser)
    ensures a.Anonymous? ==> !HasPermission(IsAdminOrSuperUser, a, m)
    ensures a.Authenticated? && a.user.role == Roles.Moderator && !a.user.isSuperuser
        ==> !HasPermission(IsAdminOrSuperUser, a, m)
  {
  }

  /** `IsAdminOrReadOnly` lets everyone, anonymous requesters included, use
      a safe method, and only authenticated admins and superusers use an
      unsafe one. */
  lemma AdminOrReadOnlyGrants(a: Actor, m: Method)
    ensures IsSafe(m) ==> HasPermission(IsAdminOrReadOnly, a, m)
    ensures !IsSafe(m) ==>
      (HasPermission(IsAdminOrReadOnly, a, m) <==> a.Authenticated? && Accounts.IsAdmin(a.user))
  {
  }

  /** `IsModerator` grants exactly the authenticated moderators: an admin or
      superuser holding another role is refused. */
  lemma ModeratorGrantsOnlyModerators(a: Actor, m: Method)
    ensures HasPermission(IsModerator, a, m) <==> a.Authenticated? && a.user.role == Roles.Moderator
    ensures a.Authenticated? && a.user.role != Roles.Moderator && Accounts.IsAdmin(a.user)
        ==> !HasPermission(IsModerator, a, m)
  {
  }

  /** `IsUser` grants exactly the authenticated holders of the user role. */
  lemma UserGrantsOnlyUsers(a: Actor, m: Method)
    ensures HasPermission(IsUser, a, m) <==> a.Authenticated? && a.user.role == Roles.User
  {
  }

  /** `IsOwner.has_permission` passes every authenticated requester
      whatever the role, and an anonymous one only for a safe method. */
  lemma OwnerRequestLevel(a: Actor, m: Method)
    ensures a.Authenticated? ==> HasPermission(IsOwner, a, m)
    ensures a.Anonymous? ==> (HasPermission(IsOwner, a, m) <==> IsSafe(m))
  {
  }

  /** `IsOwner.has_object_permission` grants an unsafe method exactly to the
      object's author, moderators and admins; moderators and admins are
      granted every object. */
  lemma OwnerObjectLevel(a: Actor, m: Method, author: Option<Accounts.UserId>)
    requires a.Authenticated?
    ensures !IsSafe(m) ==>
      (HasObjectPermission(IsOwner, a, m, author) <==>
        author == Some(a.user.id) || Accounts.IsModerator(a.user) || Accounts.IsAdmin(a.user))
    ensures Accounts.IsModerator(a.user) || Accounts.IsAdmin(a.user)
        ==> HasObjectPermission(IsOwner, a, m, author)
  {
  }

  /** The superuser flag stands in for the admin role: a signed-in
      superuser passes both admin classes whatever role it holds, may edit
      every object, and so no object check refuses it. The role-only classes
      `IsModerator` and `IsUser` still follow its role. */
  lemma SuperuserPassesAdminChecks(u: Accounts.Account, m: Method, author: Option<Accounts.UserId>)
    requires u.isSuperuser
    ensures HasPermission(IsAdminOrSuperUser, Authenticated(u), m)
    ensures HasPermission(IsAdminOrReadOnly, Authenticated(u), m)
    ensures MayEdit(Authenticated(u), author)
    ensures forall p: Permission :: HasPermission(p, Authenticated(u), m) ==>
      HasObjectPermission(p, Authenticated(u), m, author)
    ensures HasPermission(IsModerator, Authenticated(u), m) <==> u.role == Roles.Moderator
    ensures HasPermission(IsUser, Authenticated(u), m) <==> u.role == Roles.User
  {
  }

  /** Combining classes with `|` never refuses a request one of them
      grants. */
  lemma OrWidens(l: Permission, r: Permission, a: Actor, m: Method)
    ensures HasPermission(l, a, m) ==> HasPermission(Or(l, r), a, m)
    ensures HasPermission(r, a, m) ==> HasPermission(Or(l, r), a, m)
  {
  }
}

=== FILE: registration.dfy ===
/** `APISignUp.post`: the sign-up endpoint. A request whose username and
    e-mail already belong to one account re-sends that account's
    confirmation code; any other request creates an inactive account and
    sends it its code. Mail delivery is left out; the model returns the mail
    it would send. */
module Registration {
  import opened Outcomes
  import opened Roles
  import opened Accounts
  import opened Models
  import opened Serializers
  import opened Credentials

  /** The confirmation mail: recipient and code. */
  datatype Mail = Mail(to: string, code: string)

  /** The body of a successful answer: the e-mail and the username. */
  datatype SignupReply = SignupReply(email: string, username: string)

  datatype Signup = Signup(db: Db, mail: Mail, reply: SignupReply)

  /** Sign-up storing `role` in a newly created account. First the
      length-only checks of `SendCodeUserSerializer`; then, unless the exact
      (username, e-mail) pair exists, the full checks of
      `ForUserAndAdminSerializer` and the insert with `is_active` false;
      then the code of the account filed under the username goes to the
      requested address. */
  function SignUpWith(db: Db, d: UserData, gen: CodeGenerator, role: Role): (r: Result<Signup>)
    ensures r.Failure? ==> r.error.ValidationError? && r.error.fields != {}
    ensures ShapeErrors(d, false, true) != {} ==> r == Failure(ValidationError(ShapeErrors(d, false, true)))
    ensures ShapeErrors(d, false, true) == {} ==>
      (r.Success? <==>
        PairExists(db.users, d.username.value, d.email.value) || UserErrors(db.users, d, None, false, true) == {})
    ensures (ShapeErrors(d, false, true) == {} && !PairExists(db.users, d.username.value, d.email.value) &&
             UserErrors(db.users, d, None, false, true) != {}) ==>
      r == Failure(ValidationError(UserErrors(db.users, d, None, false, true)))
    ensures r.Success? ==> d.username.Some? && d.email.Some?
    ensures r.Success? ==> r.value.reply == SignupReply(d.email.value, d.username.value)
    ensures r.Success? ==> PairExists(r.value.db.users, d.username.value, d.email.value)
    ensures r.Success? ==> r.value.mail == Mail(d.email.value, gen(KeyOf(r.value.db.users[d.username.value])))
    ensures r.Success? && PairExists(db.users, d.username.value, d.email.value) ==> r.value.db == db
    ensures r.Success? && !PairExists(db.users, d.username.value, d.email.value) ==>
      && d.username.value !in db.users
      && r.value.db == AddAccount(db, NewAccount(d, role, false))
      && r.value.db.users[d.username.value].id == db.nextUserId
      && r.value.db.users[d.username.value].role == role
      && !r.value.db.users[d.username.value].isActive
      && !r.value.db.users[d.username.value].isSuperuser
  {
    var shape := ShapeErrors(d, false, true);
    if shape != {} then Failure(ValidationError(shape))
    else
      var name := d.username.value;
      var email := d.email.value;
      if PairExists(db.users, name, email) then
        Success(Signup(db, Mail(email, gen(KeyOf(db.users[name]))), SignupReply(email, name)))
      else
        var errs := UserErrors(db.users, d, None, false, true);
        if errs != {} then Failure(ValidationError(errs))
        else
          var db' := AddAccount(db, NewAccount(d, role, false));
          Success(Signup(db', Mail(email, gen(KeyOf(db'.users[name]))), SignupReply(email, name)))
  }

  /** The endpoint as written: the serializer's `role` field is writable,
      so a new account gets the role the request names. */
  function SignUpAsWritten(db: Db, d: UserData, gen: CodeGenerator): (r: Result<Signup>)
    ensures r.Success? ==> d.username.Some? && d.email.Some? && d.username.value in r.value.db.users
    ensures r.Success? && !PairExists(db.users, d.username.value, d.email.value) ==>
      r.value.db.users[d.username.value].role == RequestedRole(d)
  {
    SignUpWith(db, d, gen, RequestedRole(d))
  }

  /** The endpoint as evidently intended: self-registration creates
      accounts with the default role, whatever the request names. */
  function SignUp(db: Db, d: UserData, gen: CodeGenerator): (r: Result<Signup>)
    ensures r.Success? ==> d.username.Some? && d.email.Some? && d.username.value in r.value.db.users
    ensures r.Success? && !PairExists(db.users, d.username.value, d.email.value) ==>
      r.value.db.users[d.username.value].role == DEFAULT_ROLE
  {
    SignUpWith(db, d, gen, DEFAULT_ROLE)
  }

  /** Sign-up keeps the store invariant. */
  lemma SignUpWithKeepsValid(db: Db, d: UserData, gen: CodeGenerator, role: Role)
    requires Valid(db) && SignUpWith(db, d, gen, role).Success?
    ensures Valid(SignUpWith(db, d, gen, role).value.db)
  {
    if !PairExists(db.users, d.username.value, d.email.value) {
      NewAccountWellFormed(db.users, d, role, false);
      AddAccountValid(db, NewAccount(d, role, false));
    }
  }

  /** Repeating a successful sign-up changes nothing and sends the same
      mail again. */
  lemma SignUpIdempotent(db: Db, d: UserData, gen: CodeGenerator, role: Role)
    requires SignUpWith(db, d, gen, role).Success?
    ensures var s := SignUpWith(db, d, gen, role).value;
      SignUpWith(s.db, d, gen, role) == Success(s)
  {
  }

  /** Anyone may register an administrator account: a request naming the
      admin role, sent to an empty store, creates an account that passes
      every admin-only permission. */
  lemma SignUpAsWrittenGrantsAdmin(gen: CodeGenerator)
    ensures var d := UserData(Some("eve"), Some("eve@example.org"), None, None, None, Some(ADMIN));
      && SignUpAsWritten(EMPTY, d, gen).Success?
      && IsAdmin(SignUpAsWritten(EMPTY, d, gen).value.db.users["eve"])
  {
    var d := UserData(Some("eve"), Some("eve@example.org"), None, None, None, Some(ADMIN));
    assert ShapeErrors(d, false, true) == {};
    assert !PairExists(EMPTY.users, "eve", "eve@example.org");
    assert UserErrors(EMPTY.users, d, None, false, true) == {};
  }

  /** With the default role, sign-up never creates an administrator or a
      moderator: every admin or moderator after it was one, unchanged,
      before. */
  lemma SignUpNeverElevates(db: Db, d: UserData, gen: CodeGenerator)
    requires SignUp(db, d, gen).Success?
    ensures var users := SignUp(db, d, gen).value.db.users;
      forall u :: u in users && (IsAdmin(users[u]) || IsModerator(users[u])) ==>
        u in db.users && db.users[u] == users[u]
  {
    var s := SignUp(db, d, gen).value;
    if !PairExists(db.users, d.username.value, d.email.value) {
      assert s.db.users == db.users[d.username.value := NewAccount(d, DEFAULT_ROLE, false).(id := db.nextUserId)];
    }
  }

  /** The reserved username is always refused; once the length checks pass,
      the refusal names the username. */
  lemma SignUpRejectsReserved(db: Db, d: UserData, gen: CodeGenerator, role: Role)
    requires Valid(db) && d.username == Some(RESERVED_NAME)
    ensures SignUpWith(db, d, gen, role).Failure?
    ensures ShapeErrors(d, false, true) == {} ==> Username in SignUpWith(db, d, gen, role).error.fields
  {
    if ShapeErrors(d, false, true) == {} {
      assert RESERVED_NAME !in db.users;
    }
  }

  /** A username held by an account with another e-mail is refused. */
  lemma SignUpRejectsTakenUsername(db: Db, d: UserData, gen: CodeGenerator, role: Role)
    requires ShapeErrors(d, false, true) == {}
    requires d.username.value in db.users && db.users[d.username.value].email != d.email.value
    ensures SignUpWith(db, d, gen, role).Failure?
    ensures Username in SignUpWith(db, d, gen, role).error.fields
  {
  }

  /** An e-mail held by an account with another username is refused. */
  lemma SignUpRejectsTakenEmail(db: Db, d: UserData, gen: CodeGenerator, role: Role)
    requires ShapeErrors(d, false, true) == {}
    requires EmailInUse(db.users, d.email.value, None) && !PairExists(db.users, d.username.value, d.email.value)
    ensures SignUpWith(db, d, gen, role).Failure?
    ensures Email in SignUpWith(db, d, gen, role).error.fields
  {
  }
}

=== FILE: reviewendpoints.dfy ===
/** `ReviewViewSet` and `CommentViewSet`: reviews under
    `/titles/{title_id}/reviews/` and comments under
    `/titles/{title_id}/reviews/{review_id}/comments/`, each gated as the
    viewset's permission list says, validated by its serializer and stored
    with the requester as author. */
module ReviewEndpoints {
  import opened Outcomes
  import opened Accounts
  import opened Models
  import opened Serializers
  import opened Permissions
  import opened Gates

  /** A signed-in requester is the account the store holds under its
      username, as the authentication loads it. */
  predicate Current(db: Db, a: Actor) {
    a.Authenticated? ==> a.user.username in db.users && db.users[a.user.username] == a.user
  }

  /** The review queryset of a title: a review is found only under its own
      title. */
  function ReviewTarget(db: Db, title: TitleId, id: ReviewId): (t: Target)
    ensures t.Present? <==> id in db.reviews && db.reviews[id].title == title
    ensures t.Present? ==> t.author == Some(db.reviews[id].author)
  {
    if id in db.reviews && db.reviews[id].title == title then Present(Some(db.reviews[id].author)) else Absent
  }

  /** `GET /titles/{title_id}/reviews/`: open to everyone (`OpenReadGate`);
      a title without reviews, or one that does not exist, lists nothing. */
  function ListReviews(db: Db, a: Actor, title: TitleId): (r: Result<set<ReviewId>>)
    ensures r.Success?
    ensures forall id :: id in r.value <==> id in db.reviews && db.reviews[id].title == title
  {
    Success(set id | id in db.reviews && db.reviews[id].title == title)
  }

  /** `GET /titles/{title_id}/reviews/{id}/`: open to everyone. */
  function RetrieveReview(db: Db, a: Actor, title: TitleId, id: ReviewId): (r: Result<Review>)
    ensures r.Success? <==> id in db.reviews && db.reviews[id].title == title
    ensures r.Success? ==> r.value == db.reviews[id]
    ensures r.Failure? ==> r.error == NotFound
  {
    OpenReadGate(Reviews, Detail, a, ReviewTarget(db, title, id));
    var g := Gate(Reviews, Detail, Get, a, ReviewTarget(db, title, id));
    if g.Failure? then Failure(g.error) else Success(db.reviews[id])
  }

  /** `POST /titles/{title_id}/reviews/`: the requester must be signed in;
      then the fields are validated, then the requester must not have
      reviewed the title yet, then the title must exist. The review is
      stored under the next key with the requester as author and the
      path's title. */
  function CreateReview(db: Db, a: Actor, title: TitleId, text: Option<string>, score: Option<int>)
    : (r: Result<Db>)
    ensures a.Anonymous? ==> r == Failure(NotAuthenticated)
    ensures r.Success? <==>
      && a.Authenticated? && ReviewFieldErrors(text, score, false) == {}
      && !HasReviewBy(db.reviews, a.user.id, title) && title in db.titles
    ensures r.Success? ==> r.value == AddReview(db, Review(title, a.user.id, text.value, score.value))
    ensures r.Success? ==> ScoreInRange(score.value) && text.value != ""
    ensures a.Authenticated? && ReviewFieldErrors(text, score, false) != {} ==>
      r == Failure(ValidationError(ReviewFieldErrors(text, score, false)))
    ensures (a.Authenticated? && ReviewFieldErrors(text, score, false) == {} &&
             HasReviewBy(db.reviews, a.user.id, title))
      ==> r == Failure(ValidationError({NonField}))
    ensures (a.Authenticated? && ReviewFieldErrors(text, score, false) == {} &&
             !HasReviewBy(db.reviews, a.user.id, title) && title !in db.titles)
      ==> r == Failure(NotFound)
  {
    AuthenticatedCreateGate(Reviews, a, Absent);
    var g := Gate(Reviews, Collection, Post, a, Absent);
    if g.Failure? then Failure(g.error)
    else
      var errs := ReviewFieldErrors(text, score, false);
      if errs != {} then Failure(ValidationError(errs))
      else
        var check := ReviewValidate(db.reviews, true, a.user.id, title);
        if check.Failure? then Failure(check.error)
        else if title !in db.titles then Failure(NotFound)
        else Success(AddReview(db, Review(title, a.user.id, text.value, score.value)))
  }

  /** Creating a review keeps the store invariant. */
  lemma CreateReviewKeepsValid(db: Db, a: Actor, title: TitleId, text: Option<string>, score: Option<int>)
    requires Valid(db) && Current(db, a) && CreateReview(db, a, title, text, score).Success?
    ensures Valid(CreateReview(db, a, title, text, score).value)
  {
    UserIdsMember(db.users, a.user.username);
    AddReviewValid(db, Review(title, a.user.id, text.value, score.value));
  }

  /** A requester reviews a title once: repeating a successful create is
      refused by the duplicate check. */
  lemma CreateReviewOnce(db: Db, a: Actor, title: TitleId, text: Option<string>, score: Option<int>)
    requires CreateReview(db, a, title, text, score).Success?
    ensures var db' := CreateReview(db, a, title, text, score).value;
      CreateReview(db', a, title, text, score) == Failure(ValidationError({NonField}))
  {
    var db' := CreateReview(db, a, title, text, score).value;
    assert db'.reviews[db.nextReviewId].author == a.user.id && db'.reviews[db.nextReviewId].title == title;
    assert HasReviewBy(db'.reviews, a.user.id, title);
  }

  /** `PUT` and `PATCH /titles/{title_id}/reviews/{id}/`: PUT falls back to
      the default `[IsOwner]`, PATCH has it from the table, so both need
      the author, a moderator or an admin. PUT needs every field, PATCH
      any; the duplicate check does not run. Text and score change;
      title, author and every other row stay. */
  function UpdateReview(db: Db, a: Actor, m: Method, title: TitleId, id: ReviewId,
                        text: Option<string>, score: Option<int>): (r: Result<Db>)
    requires m == Put || m == Patch
    ensures a.Anonymous? ==> r == Failure(NotAuthenticated)
    ensures a.Authenticated? && ReviewTarget(db, title, id).Absent? ==> r == Failure(NotFound)
    ensures ReviewTarget(db, title, id).Present? && a.Authenticated? && !MayEdit(a, Some(db.reviews[id].author)) ==>
      r == Failure(PermissionDenied)
    ensures ReviewTarget(db, title, id).Present? && MayEdit(a, Some(db.reviews[id].author)) ==>
      (r.Success? <==> ReviewFieldErrors(text, score, m == Patch) == {})
    ensures (ReviewTarget(db, title, id).Present? && MayEdit(a, Some(db.reviews[id].author)) &&
             ReviewFieldErrors(text, score, m == Patch) != {}) ==>
      r == Failure(ValidationError(ReviewFieldErrors(text, score, m == Patch)))
    ensures r.Success? ==>
      && id in db.reviews && db.reviews[id].title == title && MayEdit(a, Some(db.reviews[id].author))
      && r.value == db.(reviews := db.reviews[id := db.reviews[id].(text := text.GetOr(db.reviews[id].text),
                                                                   score := score.GetOr(db.reviews[id].score))])
      && (score.Some? ==> ScoreInRange(score.value))
      && (m == Put ==> text.Some? && score.Some?)
  {
    AuthoredDetailGate(Reviews, m, a, ReviewTarget(db, title, id));
    var g := Gate(Reviews, Detail, m, a, ReviewTarget(db, title, id));
    if g.Failure? then Failure(g.error)
    else
      var errs := ReviewFieldErrors(text, score, m == Patch);
      if errs != {} then Failure(ValidationError(errs))
      else
        var before := db.reviews[id];
        Success(db.(reviews := db.reviews[id := before.(text := text.GetOr(before.text),
                                                         score := score.GetOr(before.score))]))
  }

  /** Editing a review keeps the store invariant. */
  lemma UpdateReviewKeepsValid(db: Db, a: Actor, m: Method, title: TitleId, id: ReviewId,
                               text: Option<string>, score: Option<int>)
    requires m == Put || m == Patch
    requires Valid(db) && UpdateReview(db, a, m, title, id, text, score).Success?
    ensures Valid(UpdateReview(db, a, m, title, id, text, score).value)
  {
    var before := db.reviews[id];
    SetReviewValid(db, id, text.GetOr(before.text), score.GetOr(before.score));
  }

  /** `DELETE /titles/{title_id}/reviews/{id}/`: for the author, moderators
      and admins; the review's comments go with it. */
  function DestroyReview(db: Db, a: Actor, title: TitleId, id: ReviewId): (r: Result<Db>)
    ensures a.Anonymous? ==> r == Failure(NotAuthenticated)
    ensures a.Authenticated? && ReviewTarget(db, title, id).Absent? ==> r == Failure(NotFound)
    ensures r.Success? <==> ReviewTarget(db, title, id).Present? && MayEdit(a, Some(db.reviews[id].author))
    ensures r.Success? ==> r.value == DeleteReview(db, id)
    ensures r.Failure? ==> r.error == NotAuthenticated || r.error == NotFound || r.error == PermissionDenied
  {
    AuthoredDetailGate(Reviews, Delete, a, ReviewTarget(db, title, id));
    var g := Gate(Reviews, Detail, Delete, a, ReviewTarget(db, title, id));
    if g.Failure? then Failure(g.error) else Success(DeleteReview(db, id))
  }

  /** The comment queryset: a comment is found under its review's key
      alone; the path's title is not compared. */
  function CommentTarget(db: Db, review: ReviewId, id: CommentId): (t: Target)
    ensures t.Present? <==> id in db.comments && db.comments[id].review == review
    ensures t.Present? ==> t.author == Some(db.comments[id].author)
  {
    if id in db.comments && db.comments[id].review == review then Present(Some(db.comments[id].author)) else Absent
  }

  /** `GET .../reviews/{review_id}/comments/`: open to everyone
      (`OpenReadGate`), whatever the title in the path. */
  function ListComments(db: Db, a: Actor, title: TitleId, review: ReviewId): (r: Result<set<CommentId>>)
    ensures r.Success?
    ensures forall id :: id in r.value <==> id in db.comments && db.comments[id].review == review
  {
    Success(set id | id in db.comments && db.comments[id].review == review)
  }

  /** `GET .../comments/{id}/`: open to everyone. */
  function RetrieveComment(db: Db, a: Actor, title: TitleId, review: ReviewId, id: CommentId)
    : (r: Result<Comment>)
    ensures r.Success? <==> id in db.comments && db.comments[id].review == review
    ensures r.Success? ==> r.value == db.comments[id]
    ensures r.Failure? ==> r.error == NotFound
  {
    OpenReadGate(Comments, Detail, a, CommentTarget(db, review, id));
    var g := Gate(Comments, Detail, Get, a, CommentTarget(db, review, id));
    if g.Failure? then Failure(g.error) else Success(db.comments[id])
  }

  /** `POST .../reviews/{review_id}/comments/`: the requester must be signed
      in, the text non-blank, and the review must belong to the path's
      title. The comment is stored with the requester as author. */
  function CreateComment(db: Db, a: Actor, title: TitleId, review: ReviewId, text: Option<string>)
    : (r: Result<Db>)
    ensures a.Anonymous? ==> r == Failure(NotAuthenticated)
    ensures r.Success? <==>
      && a.Authenticated? && TextFieldErrors(text, true, Text) == {}
      && review in db.reviews && db.reviews[review].title == title
    ensures r.Success? ==> r.value == AddComment(db, Comment(review, a.user.id, text.value))
    ensures r.Success? ==> text.value != ""
    ensures a.Authenticated? && TextFieldErrors(text, true, Text) != {} ==>
      r == Failure(ValidationError(TextFieldErrors(text, true, Text)))
    ensures (a.Authenticated? && TextFieldErrors(text, true, Text) == {} &&
             !(review in db.reviews && db.reviews[review].title == title))
      ==> r == Failure(NotFound)
  {
    AuthenticatedCreateGate(Comments, a, Absent);
    var g := Gate(Comments, Collection, Post, a, Absent);
    if g.Failure? then Failure(g.error)
    else
      var errs := TextFieldErrors(text, true, Text);
      if errs != {} then Failure(ValidationError(errs))
      else if !(review in db.reviews && db.reviews[review].title == title) then Failure(NotFound)
      else Success(AddComment(db, Comment(review, a.user.id, text.value)))
  }

  /** Creating a comment keeps the store invariant. */
  lemma CreateCommentKeepsValid(db: Db, a: Actor, title: TitleId, review: ReviewId, text: Option<string>)
    requires Valid(db) && Current(db, a) && CreateComment(db, a, title, review, text).Success?
    ensures Valid(CreateComment(db, a, title, review, text).value)
  {
    UserIdsMember(db.users, a.user.username);
    AddCommentValid(db, Comment(review, a.user.id, text.value));
  }

  /** `PUT` and `PATCH .../comments/{id}/`: `[IsOwner]` like every comment
      action. Only the text changes. */
  function UpdateComment(db: Db, a: Actor, m: Method, title: TitleId, review: ReviewId, id: CommentId,
                         text: Option<string>): (r: Result<Db>)
    requires m == Put || m == Patch
    ensures a.Anonymous? ==> r == Failure(NotAuthenticated)
    ensures a.Authenticated? && CommentTarget(db, review, id).Absent? ==> r == Failure(NotFound)
    ensures CommentTarget(db, review, id).Present? && a.Authenticated? && !MayEdit(a, Some(db.comments[id].author)) ==>
      r == Failure(PermissionDenied)
    ensures CommentTarget(db, review, id).Present? && MayEdit(a, Some(db.comments[id].author)) ==>
      (r.Success? <==> TextFieldErrors(text, m == Put, Text) == {})
    ensures (CommentTarget(db, review, id).Present? && MayEdit(a, Some(db.comments[id].author)) &&
             TextFieldErrors(text, m == Put, Text) != {}) ==>
      r == Failure(ValidationError(TextFieldErrors(text, m == Put, Text)))
    ensures r.Success? ==>
      && id in db.comments && db.comments[id].review == review && MayEdit(a, Some(db.comments[id].author))
      && r.value == db.(comments := db.comments[id := db.comments[id].(text := text.GetOr(db.comments[id].text))])
  {
    AuthoredDetailGate(Comments, m, a, CommentTarget(db, review, id));
    var g := Gate(Comments, Detail, m, a, CommentTarget(db, review, id));
    if g.Failure? then Failure(g.error)
    else
      var errs := TextFieldErrors(text, m == Put, Text);
      if errs != {} then Failure(ValidationError(errs))
      else
        var before := db.comments[id];
        Success(db.(comments := db.comments[id := before.(text := text.GetOr(before.text))]))
  }

  /** Editing a comment keeps the store invariant. */
  lemma UpdateCommentKeepsValid(db: Db, a: Actor, m: Method, title: TitleId, review: ReviewId, id: CommentId,
                                text: Option<string>)
    requires m == Put || m == Patch
    requires Valid(db) && UpdateComment(db, a, m, title, review, id, text).Success?
    ensures Valid(UpdateComment(db, a, m, title, review, id, text).value)
  {
    var db' := UpdateComment(db, a, m, title, review, id, text).value;
    assert CommentsValid(db') by {
      forall c | c in db'.comments
        ensures c < db'.nextCommentId && db'.comments[c].review in db'.reviews
        ensures db'.comments[c].author in UserIds(db'.users)
      {
        assert c in db.comments;
      }
    }
  }

  /** `DELETE .../comments/{id}/`: for the author, moderators and admins. */
  function DestroyComment(db: Db, a: Actor, title: TitleId, review: ReviewId, id: CommentId): (r: Result<Db>)
    ensures a.Anonymous? ==> r == Failure(NotAuthenticated)
    ensures a.Authenticated? && CommentTarget(db, review, id).Absent? ==> r == Failure(NotFound)
    ensures r.Success? <==> CommentTarget(db, review, id).Present? && MayEdit(a, Some(db.comments[id].author))
    ensures r.Success? ==> r.value == DeleteComment(db, id)
    ensures r.Failure? ==> r.error == NotAuthenticated || r.error == NotFound || r.error == PermissionDenied
  {
    AuthoredDetailGate(Comments, Delete, a, CommentTarget(db, review, id));
    var g := Gate(Comments, Detail, Delete, a, CommentTarget(db, review, id));
    if g.Failure? then Failure(g.error) else Success(DeleteComment(db, id))
  }
}

=== FILE: roles.dfy ===
/** The three roles an account can hold (reviews/models.py:110-118) and the
    string values the role field stores and the serializers accept. */
module Roles {
  import opened Outcomes

  datatype Role = User | Moderator | Admin

  const USER: string := "user"
  const MODERATOR: string := "moderator"
  const ADMIN: string := "admin"

  /** The role a new account gets when none is given. */
  const DEFAULT_ROLE: Role := User

  /** The value stored in the role column for each role. */
  function RoleName(r: Role): string {
    match r
    case User => USER
    case Moderator => MODERATOR
    case Admin => ADMIN
  }

  /** The choice check a serializer's role field performs: a string is
      accepted exactly when it is one of the ROLE_CHOICES values, and then
      names the role it was read as. */
  function ParseRole(s: string): (r: Option<Role>)
    ensures r.Some? <==> (s == USER || s == MODERATOR || s == ADMIN)
    ensures r.Some? ==> RoleName(r.value) == s
  {
    if s == USER then Some(User)
    else if s == MODERATOR then Some(Moderator)
    else if s == ADMIN then Some(Admin)
    else None
  }

  /** Reading back a stored role name gives the same role. */
  lemma ParseRoleName(r: Role)
    ensures ParseRole(RoleName(r)) == Some(r)
  {
  }

  /** Distinct roles are stored as distinct strings. */
  lemma RoleNameInjective(r: Role, q: Role)
    ensures RoleName(r) == RoleName(q) ==> r == q
  {
    ParseRoleName(r);
    ParseRoleName(q);
  }
}

=== FILE: serializers.dfy ===
/** The request validation of api/serializers.py: field bounds, the reserved
    username, the uniqueness of usernames and e-mails, the read-only role of
    the self-profile serializer, the review checks and the title year. A
    failing validation reports the set of fields that failed. */
module Serializers {
  import opened Outcomes
  import opened Roles
  import opened Accounts
  import opened Models

  /** The account fields a request may carry; `None` is a field absent
      from the request. */
  datatype UserData = UserData(
    username: Option<string>,
    email: Option<string>,
    firstName: Option<string>,
    lastName: Option<string>,
    bio: Option<string>,
    role: Option<string>)

  /** A character field: absent is an error only when the field is required,
      blank only when blanks are not allowed, and longer than `maxLength`
      always. */
  function CharFieldErrors(v: Option<string>, maxLength: nat, required: bool, allowBlank: bool,
                           f: Field): (errs: set<Field>)
    ensures errs <= {f}
    ensures errs == {} && v.Some? ==> |v.value| <= maxLength && (allowBlank || v.value != "")
    ensures errs == {} && v.None? ==> !required
    ensures errs == {} <==>
      (v.None? ==> !required) && (v.Some? ==> |v.value| <= maxLength && (allowBlank || v.value != ""))
  {
    match v
    case None => if required then {f} else {}
    case Some(s) => if (!allowBlank && s == "") || |s| > maxLength then {f} else {}
  }

  /** The field checks that need no database: username and e-mail bounds
      (required unless the update is partial), name bounds, and the role
      choice when the role is writable. These are also all that
      `SendCodeUserSerializer` checks. */
  function ShapeErrors(d: UserData, partial: bool, roleWritable: bool): (errs: set<Field>)
    ensures errs <= {Username, Email, FirstName, LastName, Role}
    ensures errs == {} && d.username.Some? ==> 0 < |d.username.value| <= MAX_USERNAME_LENGTH
    ensures errs == {} && d.email.Some? ==> 0 < |d.email.value| <= MAX_EMAIL_LENGTH
    ensures errs == {} && d.firstName.Some? ==> |d.firstName.value| <= MAX_NAME_LENGTH
    ensures errs == {} && d.lastName.Some? ==> |d.lastName.value| <= MAX_NAME_LENGTH
    ensures errs == {} && !partial ==> d.username.Some? && d.email.Some?
    ensures errs == {} && roleWritable && d.role.Some? ==> ParseRole(d.role.value).Some?
    ensures !roleWritable ==> Role !in errs
    ensures errs == {} <==>
      && (d.username.Some? ==> 0 < |d.username.value| <= MAX_USERNAME_LENGTH)
      && (d.email.Some? ==> 0 < |d.email.value| <= MAX_EMAIL_LENGTH)
      && (d.firstName.Some? ==> |d.firstName.value| <= MAX_NAME_LENGTH)
      && (d.lastName.Some? ==> |d.lastName.value| <= MAX_NAME_LENGTH)
      && (!partial ==> d.username.Some? && d.email.Some?)
      && (roleWritable && d.role.Some? ==> ParseRole(d.role.value).Some?)
  {
    CharFieldErrors(d.username, MAX_USERNAME_LENGTH, !partial, false, Username)
    + CharFieldErrors(d.email, MAX_EMAIL_LENGTH, !partial, false, Email)
    + CharFieldErrors(d.firstName, MAX_NAME_LENGTH, false, true, FirstName)
    + CharFieldErrors(d.lastName, MAX_NAME_LENGTH, false, true, LastName)
    + (if roleWritable && d.role.Some? && ParseRole(d.role.value).None? then {Role} else {})
  }

  /** `ForUserAndAdminSerializer` (role writable) and `UsersMeSerializer`
      (role read-only) validation. `instance` is the username of the edited
      account, whose own username and e-mail do not count as taken. Data
      that passes names no username other than the edited account's that
      exists, never the reserved one, and no e-mail another account has. */
  function UserErrors(users: map<string, Account>, d: UserData, instance: Option<string>,
                      partial: bool, roleWritable: bool): (errs: set<Field>)
    ensures errs == {} ==> ShapeErrors(d, partial, roleWritable) == {}
    ensures errs == {} && d.username.Some? ==>
      d.username.value != RESERVED_NAME && (d.username.value in users ==> instance == Some(d.username.value))
    ensures errs == {} && d.email.Some? ==> !EmailInUse(users, d.email.value, instance)
    ensures d.username == Some(RESERVED_NAME) ==> Username in errs
    ensures ShapeErrors(d, partial, roleWritable) <= errs
    ensures errs <= {Username, Email, FirstName, LastName, Role}
    ensures errs == {} <==>
      && ShapeErrors(d, partial, roleWritable) == {}
      && (d.username.Some? ==>
            d.username.value != RESERVED_NAME && (d.username.value in users ==> instance == Some(d.username.value)))
      && (d.email.Some? ==> !EmailInUse(users, d.email.value, instance))
  {
    ShapeErrors(d, partial, roleWritable)
    + (if d.username.Some? &&
          (d.username.value == RESERVED_NAME || (d.username.value in users && instance != Some(d.username.value)))
       then {Username} else {})
    + (if d.email.Some? && EmailInUse(users, d.email.value, instance) then {Email} else {})
  }

  /** The role a request asks for, the default when it names none. */
  function RequestedRole(d: UserData): (role: Role)
    ensures d.role.None? ==> role == DEFAULT_ROLE
    ensures d.role.Some? && ParseRole(d.role.value).Some? ==> RoleName(role) == d.role.value
  {
    if d.role.Some? && ParseRole(d.role.value).Some? then ParseRole(d.role.value).value else DEFAULT_ROLE
  }

  /** The account a create stores from validated data: blank names and bio
      when absent, never a superuser. */
  function NewAccount(d: UserData, role: Role, active: bool): (a: Account)
    requires d.username.Some? && d.email.Some?
    ensures a.username == d.username.value && a.email == d.email.value
    ensures a.role == role && !a.isSuperuser && a.isActive == active
  {
    Account(0, d.username.value, d.email.value, d.firstName.GetOr(""), d.lastName.GetOr(""),
            d.bio.GetOr(""), role, false, active)
  }

  /** The account an update stores: each field present in the data replaces
      the stored one; the role only when it is writable; the key, the
      superuser flag and the activation flag never change. */
  function ApplyUserData(a: Account, d: UserData, roleWritable: bool): (r: Account)
    ensures r.id == a.id && r.isSuperuser == a.isSuperuser && r.isActive == a.isActive
    ensures !roleWritable || d.role.None? ==> r.role == a.role
    ensures r.username == d.username.GetOr(a.username) && r.email == d.email.GetOr(a.email)
  {
    a.(username := d.username.GetOr(a.username),
       email := d.email.GetOr(a.email),
       firstName := d.firstName.GetOr(a.firstName),
       lastName := d.lastName.GetOr(a.lastName),
       bio := d.bio.GetOr(a.bio),
       role := if roleWritable && d.role.Some? && ParseRole(d.role.value).Some?
               then ParseRole(d.role.value).value else a.role)
  }

  /** Validated data keeps an account within the field bounds. */
  lemma ApplyUserDataWellFormed(users: map<string, Account>, a: Account, d: UserData,
                                instance: Option<string>, partial: bool, roleWritable: bool)
    requires WellFormed(a) && UserErrors(users, d, instance, partial, roleWritable) == {}
    ensures WellFormed(ApplyUserData(a, d, roleWritable))
  {
  }

  /** Validated create data gives a well-formed account. */
  lemma NewAccountWellFormed(users: map<string, Account>, d: UserData, role: Role, active: bool)
    requires UserErrors(users, d, None, false, true) == {}
    ensures d.username.Some? && d.email.Some?
    ensures WellFormed(NewAccount(d, role, active))
  {
  }

  /** A text field (no length bound, never blank). */
  function TextFieldErrors(v: Option<string>, required: bool, f: Field): (errs: set<Field>)
    ensures errs <= {f}
    ensures errs == {} && v.Some? ==> v.value != ""
    ensures errs == {} <==> (v.None? ==> !required) && (v.Some? ==> v.value != "")
  {
    match v
    case None => if required then {f} else {}
    case Some(s) => if s == "" then {f} else {}
  }

  /** The fields of `ReviewSerializer`: text and a score in [1, 10], both
      required unless the update is partial. */
  function ReviewFieldErrors(text: Option<string>, score: Option<int>, partial: bool): (errs: set<Field>)
    ensures errs == {} && score.Some? ==> ScoreInRange(score.value)
    ensures errs == {} && !partial ==> text.Some? && score.Some?
    ensures score.Some? && !ScoreInRange(score.value) ==> Score in errs
    ensures errs <= {Text, Score}
    ensures errs == {} <==>
      && (text.Some? ==> text.value != "")
      && (score.Some? ==> ScoreInRange(score.value))
      && (!partial ==> text.Some? && score.Some?)
  {
    TextFieldErrors(text, !partial, Text)
    + (match score
       case None => if partial then {} else {Score}
       case Some(s) => if ScoreInRange(s) then {} else {Score})
  }

  /** `ReviewSerializer.validate`: on POST, the requester must not have
      reviewed the title already; every other method passes unchecked. */
  function ReviewValidate(reviews: map<ReviewId, Review>, isPost: bool, author: UserId,
                          title: TitleId): (r: Result<()>)
    ensures !isPost ==> r.Success?
    ensures isPost ==> (r.Success? <==> !HasReviewBy(reviews, author, title))
    ensures r.Failure? ==> r.error == ValidationError({NonField})
  {
    if isPost && HasReviewBy(reviews, author, title) then Failure(ValidationError({NonField}))
    else Success(())
  }

  /** The year field of a title write: absent, an explicit null, or a
      number. */
  datatype YearInput = Omitted | Null | Given(value: int)

  /** `TitleWriteSerializer`'s year field as written. The serializer field
      takes its bounds from the model field, whose upper bound is the year
      read when the models module was imported (`bootYear`); then
      `validate_year` compares the value with the current year, which for
      an explicit null raises a TypeError (a server error). */
  function ValidateYearAsWritten(y: YearInput, bootYear: int, currentYear: int): (r: Result<Option<int>>)
    ensures r.Success? && r.value.Some? ==> 1 <= r.value.value <= bootYear && r.value.value <= currentYear
    ensures y.Null? ==> r == Failure(ServerError)
    ensures y.Omitted? ==> r == Success(None)
  {
    match y
    case Omitted => Success(None)
    case Null => Failure(ServerError)
    case Given(v) =>
      if v < 1 || v > bootYear || v > currentYear then Failure(ValidationError({Year}))
      else Success(Some(v))
  }

  /** The year check the model and serializer evidently intend: null is
      allowed (the model field is nullable), and a number is accepted
      exactly when it lies in [1, current year]. */
  function ValidateYear(y: YearInput, currentYear: int): (r: Result<Option<int>>)
    ensures y.Given? ==> (r.Success? <==> 1 <= y.value <= currentYear)
    ensures y.Given? && r.Success? ==> r.value == Some(y.value)
    ensures !y.Given? ==> r == Success(None)
    ensures r.Failure? ==> r.error == ValidationError({Year})
  {
    match y
    case Omitted => Success(None)
    case Null => Success(None)
    case Given(v) =>
      if 1 <= v <= currentYear then Success(Some(v)) else Failure(ValidationError({Year}))
  }

  /** The import-time year bound rejects the current year once the calendar
      year has turned since the server started. */
  lemma StaleYearBoundRejectsCurrentYear()
    ensures ValidateYearAsWritten(Given(2026), 2025, 2026).Failure?
    ensures ValidateYear(Given(2026), 2026) == Success(Some(2026))
  {
  }

  /** An explicit null year, which the nullable model field allows, makes
      `validate_year` fail with a server error. */
  lemma NullYearCrashes(bootYear: int, currentYear: int)
    ensures ValidateYearAsWritten(Null, bootYear, currentYear) == Failure(ServerError)
    ensures ValidateYear(Null, currentYear) == Success(None)
  {
  }

  /** When the server started this calendar year the two checks agree on
      every number. */
  lemma YearChecksAgreeWhenFresh(v: int, year: int)
    ensures ValidateYearAsWritten(Given(v), year, year) == ValidateYear(Given(v), year)
  {
  }

  /** The fields of a title write: name, year, description, the category's
      slug and the genres' slugs. */
  datatype TitleData = TitleData(
    name: Option<string>,
    year: YearInput,
    description: Option<string>,
    category: Option<string>,
    genre: Option<seq<string>>)

  /** `TitleWriteSerializer`'s two `SlugRelatedField`s: both are required,
      the category must name an existing category, and every genre slug an
      existing genre; an empty genre list is allowed. */
  function LinkErrors(categories: set<string>, genres: set<string>, d: TitleData): (errs: set<Field>)
    ensures errs <= {Category, Genre}
    ensures Category !in errs <==> d.category.Some? && d.category.value in categories
    ensures Genre !in errs <==>
      d.genre.Some? && forall i :: 0 <= i < |d.genre.value| ==> d.genre.value[i] in genres
  {
    (if d.category.Some? && d.category.value in categories then {} else {Category})
    + (if d.genre.Some? && forall i :: 0 <= i < |d.genre.value| ==> d.genre.value[i] in genres
       then {} else {Genre})
  }

  /** The name field of `TitleWriteSerializer`: unique, non-blank, at most
      256 characters. */
  function TitleErrors(titles: map<TitleId, Title>, name: Option<string>): (errs: set<Field>)
    ensures errs == {} ==> name.Some? && 0 < |name.value| <= MAX_TITLE_NAME_LENGTH
    ensures errs == {} ==> !TitleNameInUse(titles, name.value)
    ensures errs <= {Name}
    ensures errs == {} <==>
      name.Some? && 0 < |name.value| <= MAX_TITLE_NAME_LENGTH && !TitleNameInUse(titles, name.value)
  {
    CharFieldErrors(name, MAX_TITLE_NAME_LENGTH, true, false, Name)
    + (if name.Some? && TitleNameInUse(titles, name.value) then {Name} else {})
  }
}

=== FILE: titleendpoints.dfy ===
/** The parts of `TitleViewSet` the model keeps: admins create titles,
    whose year the serializer checks against the current year, and delete
    them with their reviews and comments. */
module TitleEndpoints {
  import opened Outcomes
  import opened Accounts
  import opened Models
  import opened Serializers
  import opened Permissions
  import opened Gates

  /** The year errors of the intended check: the year field, exactly when a
      given year lies outside [1, current year]. */
  function YearErrors(year: YearInput, currentYear: int): (errs: set<Field>)
    ensures errs <= {Year}
    ensures year.Given? ==> (errs == {} <==> 1 <= year.value <= currentYear)
    ensures !year.Given? ==> errs == {}
  {
    if ValidateYear(year, currentYear).Failure? then {Year} else {}
  }

  /** The field errors of a title write under the intended year check: each
      of the four fields is named exactly when its own check fails. */
  function TitleDataErrors(db: Db, d: TitleData, currentYear: int): (errs: set<Field>)
    ensures errs <= {Name, Year, Category, Genre}
    ensures Name in errs <==> TitleErrors(db.titles, d.name) != {}
    ensures Year in errs <==> ValidateYear(d.year, currentYear).Failure?
    ensures Category in errs <==> Category in LinkErrors(db.categories, db.genres, d)
    ensures Genre in errs <==> Genre in LinkErrors(db.categories, db.genres, d)
    ensures errs == {} <==>
      TitleErrors(db.titles, d.name) == {} && LinkErrors(db.categories, db.genres, d) == {}
      && ValidateYear(d.year, currentYear).Success?
  {
    TitleErrors(db.titles, d.name) + LinkErrors(db.categories, db.genres, d) + YearErrors(d.year, currentYear)
  }

  /** The row a validated title write stores: the slugs resolve to the
      category and the set of genres. */
  function TitleRow(d: TitleData, year: Option<int>): (t: Title)
    requires d.name.Some? && d.category.Some? && d.genre.Some?
    ensures t.name == d.name.value && t.year == year && t.description == d.description
    ensures t.category == Some(d.category.value)
    ensures forall g :: g in t.genre <==> g in d.genre.value
  {
    Title(d.name.value, year, d.description, Some(d.category.value), set g | g in d.genre.value)
  }

  /** `POST /titles/`: admins only; the name must be non-blank, at most 256
      characters and unused, the category and every genre must exist, and
      the year, when given, lies in [1, current year]. Uses the intended
      year check; every failing field is reported together. */
  function CreateTitle(db: Db, a: Actor, d: TitleData, currentYear: int): (r: Result<Db>)
    ensures !(a.Authenticated? && IsAdmin(a.user)) ==> r == Failure(Denied(a))
    ensures a.Authenticated? && IsAdmin(a.user) ==>
      (r.Success? <==>
        && TitleErrors(db.titles, d.name) == {} && LinkErrors(db.categories, db.genres, d) == {}
        && ValidateYear(d.year, currentYear).Success?)
    ensures a.Authenticated? && IsAdmin(a.user) && TitleDataErrors(db, d, currentYear) != {} ==>
      r == Failure(ValidationError(TitleDataErrors(db, d, currentYear)))
    ensures r.Success? ==>
      && d.name.Some? && d.category.Some? && d.genre.Some?
      && r.value == AddTitle(db, TitleRow(d, ValidateYear(d.year, currentYear).value))
      && (d.year.Given? ==> 1 <= d.year.value <= currentYear)
      && d.category.value in db.categories
      && (forall g :: g in r.value.titles[db.nextTitleId].genre ==> g in db.genres)
  {
    TitleWriteGate(Collection, Post, a, Absent);
    var g := Gate(Titles, Collection, Post, a, Absent);
    if g.Failure? then Failure(g.error)
    else
      var errs := TitleDataErrors(db, d, currentYear);
      if errs != {} then Failure(ValidationError(errs))
      else Success(AddTitle(db, TitleRow(d, ValidateYear(d.year, currentYear).value)))
  }

  /** `POST /titles/` as written: the year is bounded by the year read when
      the models module was imported (`bootYear`) and by the current year,
      and an explicit null year ends the request with a server error
      whatever the other fields hold, since the TypeError escapes the
      serializer's field-error collection. */
  function CreateTitleAsWritten(db: Db, a: Actor, d: TitleData, bootYear: int, currentYear: int): (r: Result<Db>)
    ensures !(a.Authenticated? && IsAdmin(a.user)) ==> r == Failure(Denied(a))
    ensures a.Authenticated? && IsAdmin(a.user) && d.year.Null? ==> r == Failure(ServerError)
    ensures a.Authenticated? && IsAdmin(a.user) && !d.year.Null? ==>
      (r.Success? <==>
        && TitleErrors(db.titles, d.name) == {} && LinkErrors(db.categories, db.genres, d) == {}
        && ValidateYearAsWritten(d.year, bootYear, currentYear).Success?)
    ensures a.Authenticated? && IsAdmin(a.user) && !d.year.Null? && r.Failure? ==>
      r.error.ValidationError? &&
      r.error.fields == TitleErrors(db.titles, d.name) + LinkErrors(db.categories, db.genres, d)
        + (if ValidateYearAsWritten(d.year, bootYear, currentYear).Failure? then {Year} else {})
    ensures r.Success? ==>
      && d.name.Some? && d.category.Some? && d.genre.Some?
      && r.value == AddTitle(db, TitleRow(d, ValidateYearAsWritten(d.year, bootYear, currentYear).value))
      && (d.year.Given? ==> 1 <= d.year.value <= bootYear && d.year.value <= currentYear)
  {
    TitleWriteGate(Collection, Post, a, Absent);
    var g := Gate(Titles, Collection, Post, a, Absent);
    if g.Failure? then Failure(g.error)
    else if d.year.Null? then Failure(ServerError)
    else
      var yearCheck := ValidateYearAsWritten(d.year, bootYear, currentYear);
      var errs := TitleErrors(db.titles, d.name) + LinkErrors(db.categories, db.genres, d)
        + (if yearCheck.Failure? then {Year} else {});
      if errs != {} then Failure(ValidationError(errs))
      else Success(AddTitle(db, TitleRow(d, yearCheck.value)))
  }

  /** Except for an explicit null year, the endpoint as written behaves as
      the corrected one whenever the server started in the current
      year. */
  lemma CreateTitleAgreesWhenFresh(db: Db, a: Actor, d: TitleData, currentYear: int)
    requires !d.year.Null?
    ensures CreateTitleAsWritten(db, a, d, currentYear, currentYear) == CreateTitle(db, a, d, currentYear)
  {
    if d.year.Given? {
      YearChecksAgreeWhenFresh(d.year.value, currentYear);
    }
  }

  /** Creating a title keeps the store invariant. */
  lemma CreateTitleKeepsValid(db: Db, a: Actor, d: TitleData, currentYear: int)
    requires Valid(db) && CreateTitle(db, a, d, currentYear).Success?
    ensures Valid(CreateTitle(db, a, d, currentYear).value)
  {
    AddTitleValid(db, TitleRow(d, ValidateYear(d.year, currentYear).value));
  }

  /** `DELETE /titles/{id}/`: admins only; the title's reviews and their
      comments go with it. */
  function DestroyTitle(db: Db, a: Actor, id: TitleId): (r: Result<Db>)
    ensures !(a.Authenticated? && IsAdmin(a.user)) ==> r == Failure(Denied(a))
    ensures a.Authenticated? && IsAdmin(a.user) ==>
      r == if id in db.titles then Success(DeleteTitle(db, id)) else Failure(NotFound)
    ensures r.Success? ==> Valid(db) ==> Valid(r.value)
  {
    var target := if id in db.titles then Present(None) else Absent;
    TitleWriteGate(Detail, Delete, a, target);
    var g := Gate(Titles, Detail, Delete, a, target);
    if g.Failure? then Failure(g.error) else Success(DeleteTitle(db, id))
  }
}

=== FILE: tokens.dfy ===
/** `APIToken.post` with `TokenSerializer`: exchanging a username and its
    confirmation code for an access token, which activates the account. */
module Tokens {
  import opened Outcomes
  import opened Roles
  import opened Accounts
  import opened Models
  import opened Serializers
  import opened Credentials
  import opened Registration

  /** The length bound of both token request fields. */
  const MAX_TOKEN_FIELD_LENGTH: nat := 200

  datatype TokenRequest = TokenRequest(username: Option<string>, confirmationCode: Option<string>)

  /** The store after activation and the token handed out. */
  datatype Issued = Issued(db: Db, token: AccessToken)

  /** Both fields present, non-blank and within the bound, and the username
      not the reserved one. */
  predicate FieldsValid(req: TokenRequest) {
    && req.username.Some? && 0 < |req.username.value| <= MAX_TOKEN_FIELD_LENGTH
    && req.username.value != RESERVED_NAME
    && req.confirmationCode.Some? && 0 < |req.confirmationCode.value| <= MAX_TOKEN_FIELD_LENGTH
  }

  /** The field checks run in order: the username field, then its method
      check, which refuses the reserved name as a field error but stops the
      request with 404 at once when no account has the name; then the code
      field. With every field valid, the code is checked against the account;
      a match activates it and issues a token for it. */
  function IssueToken(db: Db, req: TokenRequest, gen: CodeGenerator): (r: Result<Issued>)
    ensures r.Success? ==>
      && FieldsValid(req) && req.username.value in db.users
      && CodeMatches(gen, db.users[req.username.value], req.confirmationCode.value)
    ensures r.Success? ==>
      && r.value.token == AccessToken(db.users[req.username.value].id)
      && r.value.db == db.(users := db.users[req.username.value := db.users[req.username.value].(isActive := true)])
    ensures FieldsValid(req) ==>
      if req.username.value !in db.users then r == Failure(NotFound)
      else if CodeMatches(gen, db.users[req.username.value], req.confirmationCode.value) then r.Success?
      else r == Failure(BadConfirmationCode)
    ensures req.username == Some(RESERVED_NAME) ==>
      r.Failure? && r.error.ValidationError? && Username in r.error.fields
    ensures req.confirmationCode.None? || req.confirmationCode == Some("") ==>
      r.Failure? && (r.error == NotFound || (r.error.ValidationError? && ConfirmationCode in r.error.fields))
    ensures r.Failure? ==> r.error == NotFound || r.error == BadConfirmationCode || r.error.ValidationError?
    ensures r.Failure? && r.error.ValidationError? ==>
      r.error.fields != {} && r.error.fields <= {Username, ConfirmationCode}
    ensures (req.username.Some? && 0 < |req.username.value| <= MAX_TOKEN_FIELD_LENGTH &&
             req.username.value != RESERVED_NAME && req.username.value in db.users &&
             !(req.confirmationCode.Some? && 0 < |req.confirmationCode.value| <= MAX_TOKEN_FIELD_LENGTH)) ==>
      r == Failure(ValidationError({ConfirmationCode}))
  {
    var nameErrors := CharFieldErrors(req.username, MAX_TOKEN_FIELD_LENGTH, true, false, Username);
    if nameErrors == {} && req.username.value != RESERVED_NAME && req.username.value !in db.users then
      Failure(NotFound)
    else
      var errors := nameErrors
        + (if nameErrors == {} && req.username.value == RESERVED_NAME then {Username} else {})
        + CharFieldErrors(req.confirmationCode, MAX_TOKEN_FIELD_LENGTH, true, false, ConfirmationCode);
      if errors != {} then Failure(ValidationError(errors))
      else
        var name := req.username.value;
        var account := db.users[name];
        if CodeMatches(gen, account, req.confirmationCode.value) then
          Success(Issued(db.(users := db.users[name := account.(isActive := true)]), AccessToken(account.id)))
        else Failure(BadConfirmationCode)
  }

  /** Issuing a token keeps the store invariant. */
  lemma IssueTokenKeepsValid(db: Db, req: TokenRequest, gen: CodeGenerator)
    requires Valid(db) && IssueToken(db, req, gen).Success?
    ensures Valid(IssueToken(db, req, gen).value.db)
  {
    SetActiveValid(db, req.username.value, true);
  }

  /** The code mailed by a sign-up, sent back with the username, activates
      the account and yields a token for it; nothing else changes. */
  lemma SignUpThenToken(db: Db, d: UserData, gen: CodeGenerator, role: Role)
    requires Valid(db) && SignUpWith(db, d, gen, role).Success?
    requires var code := SignUpWith(db, d, gen, role).value.mail.code;
      0 < |code| <= MAX_TOKEN_FIELD_LENGTH
    ensures var s := SignUpWith(db, d, gen, role).value;
      var r := IssueToken(s.db, TokenRequest(Some(d.username.value), Some(s.mail.code)), gen);
      && r.Success?
      && r.value.token == AccessToken(s.db.users[d.username.value].id)
      && r.value.db.users[d.username.value].isActive
      && r.value.db.users[d.username.value] == s.db.users[d.username.value].(isActive := true)
  {
    var s := SignUpWith(db, d, gen, role).value;
    SignUpWithKeepsValid(db, d, gen, role);
    var name := d.username.value;
    assert WellFormed(s.db.users[name]);
    assert FieldsValid(TokenRequest(Some(name), Some(s.mail.code)));
  }

  /** A code is not used up: sending the same request again after a token
      was issued succeeds, with the same token and no further change. */
  lemma CodeReusable(db: Db, req: TokenRequest, gen: CodeGenerator)
    requires IssueToken(db, req, gen).Success?
    ensures var first := IssueToken(db, req, gen).value;
      IssueToken(first.db, req, gen) == Success(first)
  {
    var first := IssueToken(db, req, gen).value;
    var name := req.username.value;
    assert KeyOf(first.db.users[name]) == KeyOf(db.users[name]);
    assert first.db.users[name := first.db.users[name].(isActive := true)] == first.db.users;
  }
}

=== FILE: userendpoints.dfy ===
/** The account endpoints of api/views.py: `APIUser` (`/users/me/`), where
    a signed-in requester reads and edits their own profile but not their
    role, and `UserViewSetForAdmin` (`/users/`), where admins list, create,
    read, edit and delete accounts by username. */
module UserEndpoints {
  import opened Outcomes
  import opened Roles
  import opened Accounts
  import opened Models
  import opened Serializers
  import opened Permissions
  import opened Gates

  /** An account as stored by a write, and the store after it. */
  datatype Saved = Saved(db: Db, account: Account)

  /** `APIUser.get`: the requester's own stored account. */
  function GetMe(db: Db, a: Actor): (r: Result<Account>)
    ensures a.Anonymous? ==> r == Failure(NotAuthenticated)
    ensures a.Authenticated? && a.user.username in db.users ==> r == Success(db.users[a.user.username])
    ensures a.Authenticated? && a.user.username !in db.users ==> r == Failure(NotFound)
  {
    if !HasPermission(IsAuthenticated, a, Get) then Failure(Denied(a))
    else if a.user.username !in db.users then Failure(NotFound)
    else Success(db.users[a.user.username])
  }

  /** `APIUser.patch`: a partial update of the requester's own account
      through `UsersMeSerializer`. The role is read-only there, so it stays
      as stored whatever the request says, as do the key, the superuser
      flag and the activation flag; no other account changes, and the
      username can only move to a name nobody holds. */
  function PatchMe(db: Db, a: Actor, d: UserData): (r: Result<Saved>)
    ensures a.Anonymous? ==> r == Failure(NotAuthenticated)
    ensures a.Authenticated? && a.user.username !in db.users ==> r == Failure(NotFound)
    ensures a.Authenticated? && a.user.username in db.users ==>
      (r.Success? <==> UserErrors(db.users, d, Some(a.user.username), true, false) == {})
    ensures r.Failure? && r.error.ValidationError? ==>
      r.error.fields == UserErrors(db.users, d, Some(a.user.username), true, false)
    ensures (a.Authenticated? && a.user.username in db.users &&
             UserErrors(db.users, d, Some(a.user.username), true, false) != {}) ==>
      r == Failure(ValidationError(UserErrors(db.users, d, Some(a.user.username), true, false)))
    ensures r.Success? ==> a.Authenticated? && a.user.username in db.users
    ensures r.Success? ==>
      var before := db.users[a.user.username];
      var after := r.value.account;
      && after.id == before.id && after.role == before.role
      && after.isSuperuser == before.isSuperuser && after.isActive == before.isActive
      && after.username == d.username.GetOr(before.username)
      && after.email == d.email.GetOr(before.email)
      && after.username in r.value.db.users && r.value.db.users[after.username] == after
      && (forall u :: u in r.value.db.users ==> u == after.username || u in db.users)
      && r.value.db.titles == db.titles && r.value.db.reviews == db.reviews
      && r.value.db.comments == db.comments
    ensures r.Success? && Valid(db) ==>
      var name := a.user.username;
      var after := r.value.account;
      && (after.username == name || after.username !in db.users)
      && (forall u :: u in db.users && u != name ==> u in r.value.db.users && r.value.db.users[u] == db.users[u])
  {
    if !HasPermission(IsAuthenticated, a, Patch) then Failure(Denied(a))
    else
      var name := a.user.username;
      if name !in db.users then Failure(NotFound)
      else
        var errs := UserErrors(db.users, d, Some(name), true, false);
        if errs != {} then Failure(ValidationError(errs))
        else
          var after := ApplyUserData(db.users[name], d, false);
          Success(Saved(ReplaceAccount(db, name, after), after))
  }

  /** A profile edit keeps the store invariant. */
  lemma PatchMeKeepsValid(db: Db, a: Actor, d: UserData)
    requires Valid(db) && PatchMe(db, a, d).Success?
    ensures Valid(PatchMe(db, a, d).value.db)
  {
    var name := a.user.username;
    ApplyUserDataWellFormed(db.users, db.users[name], d, Some(name), true, false);
    ReplaceAccountValid(db, name, ApplyUserData(db.users[name], d, false));
  }

  /** Asking `/users/me/` for the admin role changes nothing about the
      requester's privileges. */
  lemma PatchMeCannotEscalate(db: Db, a: Actor, d: UserData)
    requires d.role == Some(ADMIN) && PatchMe(db, a, d).Success?
    ensures var before := db.users[a.user.username];
      var after := PatchMe(db, a, d).value.account;
      (Accounts.IsAdmin(after) <==> Accounts.IsAdmin(before)) && (Accounts.IsModerator(after) <==> Accounts.IsModerator(before))
  {
  }

  /** The object of a detail request to the admin users viewset, looked up
      by username; accounts have no author. */
  function UserTarget(db: Db, name: string): Target {
    if name in db.users then Present(None) else Absent
  }

  /** `GET /users/`: every account, for admins only. */
  function AdminList(db: Db, a: Actor): (r: Result<map<string, Account>>)
    ensures r.Success? <==> AdminOrSuperUserHasPermission(a)
    ensures r.Success? ==> r.value == db.users
    ensures r.Failure? ==> r.error == Denied(a)
  {
    UsersGate(Collection, Get, a, Absent);
    var g := Gate(Users, Collection, Get, a, Absent);
    if g.Failure? then Failure(g.error) else Success(db.users)
  }

  /** `GET /users/{username}/` */
  function AdminRetrieve(db: Db, a: Actor, name: string): (r: Result<Account>)
    ensures !AdminOrSuperUserHasPermission(a) ==> r == Failure(Denied(a))
    ensures AdminOrSuperUserHasPermission(a) ==>
      r == if name in db.users then Success(db.users[name]) else Failure(NotFound)
  {
    UsersGate(Detail, Get, a, UserTarget(db, name));
    var g := Gate(Users, Detail, Get, a, UserTarget(db, name));
    if g.Failure? then Failure(g.error) else Success(db.users[name])
  }

  /** `POST /users/`: an admin creates an account through
      `ForUserAndAdminSerializer`, with the role the request names (the
      default when it names none); the model's default makes it active. */
  function AdminCreate(db: Db, a: Actor, d: UserData): (r: Result<Saved>)
    ensures !AdminOrSuperUserHasPermission(a) ==> r == Failure(Denied(a))
    ensures AdminOrSuperUserHasPermission(a) ==>
      (r.Success? <==> UserErrors(db.users, d, None, false, true) == {})
    ensures r.Failure? && r.error.ValidationError? ==> r.error.fields == UserErrors(db.users, d, None, false, true)
    ensures AdminOrSuperUserHasPermission(a) && UserErrors(db.users, d, None, false, true) != {} ==>
      r == Failure(ValidationError(UserErrors(db.users, d, None, false, true)))
    ensures r.Success? ==>
      && d.username.Some? && d.email.Some? && d.username.value !in db.users
      && r.value.account == NewAccount(d, RequestedRole(d), true).(id := db.nextUserId)
      && r.value.db == AddAccount(db, NewAccount(d, RequestedRole(d), true))
      && r.value.account.isActive && !r.value.account.isSuperuser
      && r.value.account.role == RequestedRole(d)
  {
    UsersGate(Collection, Post, a, Absent);
    var g := Gate(Users, Collection, Post, a, Absent);
    if g.Failure? then Failure(g.error)
    else
      var errs := UserErrors(db.users, d, None, false, true);
      if errs != {} then Failure(ValidationError(errs))
      else
        var created := NewAccount(d, RequestedRole(d), true);
        Success(Saved(AddAccount(db, created), created.(id := db.nextUserId)))
  }

  /** An admin-created account keeps the store invariant. */
  lemma AdminCreateKeepsValid(db: Db, a: Actor, d: UserData)
    requires Valid(db) && AdminCreate(db, a, d).Success?
    ensures Valid(AdminCreate(db, a, d).value.db)
  {
    NewAccountWellFormed(db.users, d, RequestedRole(d), true);
    AddAccountValid(db, NewAccount(d, RequestedRole(d), true));
  }

  /** `PUT` and `PATCH /users/{username}/`: PUT is refused with 405 (after
      the permission check); PATCH is a partial update with a writable
      role. The key and the superuser and activation flags never change,
      and no other account does. */
  function AdminUpdate(db: Db, a: Actor, m: Method, name: string, d: UserData): (r: Result<Saved>)
    requires m == Put || m == Patch
    ensures !AdminOrSuperUserHasPermission(a) ==> r == Failure(Denied(a))
    ensures AdminOrSuperUserHasPermission(a) && m == Put ==> r == Failure(MethodNotAllowed)
    ensures AdminOrSuperUserHasPermission(a) && m == Patch && name !in db.users ==> r == Failure(NotFound)
    ensures AdminOrSuperUserHasPermission(a) && m == Patch && name in db.users ==>
      (r.Success? <==> UserErrors(db.users, d, Some(name), true, true) == {})
    ensures (AdminOrSuperUserHasPermission(a) && m == Patch && name in db.users &&
             UserErrors(db.users, d, Some(name), true, true) != {}) ==>
      r == Failure(ValidationError(UserErrors(db.users, d, Some(name), true, true)))
    ensures r.Success? ==>
      && m == Patch && name in db.users
      && r.value.account == ApplyUserData(db.users[name], d, true)
      && r.value.db == ReplaceAccount(db, name, r.value.account)
    ensures r.Success? && Valid(db) ==>
      && (r.value.account.username == name || r.value.account.username !in db.users)
      && (forall u :: u in db.users && u != name ==> u in r.value.db.users && r.value.db.users[u] == db.users[u])
  {
    UsersGate(Detail, m, a, UserTarget(db, name));
    assert ActionOf(Users, Detail, Patch) == Some(PartialUpdate);
    var g := Gate(Users, Detail, m, a, UserTarget(db, name));
    if g.Failure? then Failure(g.error)
    else
      var errs := UserErrors(db.users, d, Some(name), true, true);
      if errs != {} then Failure(ValidationError(errs))
      else
        var after := ApplyUserData(db.users[name], d, true);
        Success(Saved(ReplaceAccount(db, name, after), after))
  }

  /** An admin edit keeps the store invariant. */
  lemma AdminUpdateKeepsValid(db: Db, a: Actor, m: Method, name: string, d: UserData)
    requires m == Put || m == Patch
    requires Valid(db) && AdminUpdate(db, a, m, name, d).Success?
    ensures Valid(AdminUpdate(db, a, m, name, d).value.db)
  {
    ApplyUserDataWellFormed(db.users, db.users[name], d, Some(name), true, true);
    ReplaceAccountValid(db, name, ApplyUserData(db.users[name], d, true));
  }

  /** `DELETE /users/{username}/`: removes the account with everything it
      wrote. */
  function AdminDestroy(db: Db, a: Actor, name: string): (r: Result<Db>)
    ensures !AdminOrSuperUserHasPermission(a) ==> r == Failure(Denied(a))
    ensures AdminOrSuperUserHasPermission(a) && name !in db.users ==> r == Failure(NotFound)
    ensures AdminOrSuperUserHasPermission(a) && name in db.users ==>
      r.Success? && r.value == DeleteUser(db, name)
    ensures r.Success? ==> Valid(db) ==> Valid(r.value)
  {
    UsersGate(Detail, Delete, a, UserTarget(db, name));
    var g := Gate(Users, Detail, Delete, a, UserTarget(db, name));
    if g.Failure? then Failure(g.error) else Success(DeleteUser(db, name))
  }
}
